=== FILE: README.md ===
# SEO audit toolkit — a Dafny model of its decision logic

This project models the logic of the `seo-audit` command-line tool that does not touch the network, the browser or the terminal. The tool audits a web page: it runs Lighthouse, analyses the HTML, asks an AI provider for recommendations, and prints or saves a report.

The model covers five parts:

- **The recommendation parser** (`AIAnalyzer.parseRecommendations`). It turns the AI reply into an ordered list of `{priority, issue, fix}` records.
  - `Header` replaces the header regular expression with an explicit matcher. `Header.MatchRender` proves the matcher is the exact inverse of rendering a header line.
  - `Recommendations` defines a reference reading, `Records`: one record per header line. It proves that the source's loop, which skips a line it used as a fix, computes the same thing.
- **The analyzer around the parser** (`AiAnalyzer`): how the constructor picks a provider from the environment, and the outcomes of `analyze`.
- **The command-line driver** (`Cli`): the stage order of one audit, a batch that isolates failures, and the dispatch and exit status of `run`.
- **The extractors**:
  - `HtmlAnalyzer` covers meta tags, headings, images, links, JSON-LD schema and Open Graph/Twitter tags.
  - `LighthouseRunner` covers the failed audits, opportunities, diagnostics and the boolean audit flags.
- **The formatter's classification rules** (`Formatter`): score and vital bands, meta-tag statuses, the H1 check, and the recommendations section.

`Text` models the JavaScript string primitives the code relies on: `trim` and `\s`, `split`, `startsWith`, `includes`, `replace`, UTF-16 `length`, and the ASCII case folding of a non-unicode `/i`. `Base` holds optional values, outcomes, and order-preserving filtering and counting.

Everything that performs input or output is a parameter of the model:

- the page fetch, the Lighthouse run, the AI request, the prompt text and the file writes are each an abstract outcome `Ok(value)` or `Err(message)`;
- the HTML queries, the parsed JSON and the Lighthouse audits are input sequences;
- the environment and the command line are values.

## Model

| member | source | states |
|---|---|---|
| Recommendations.ParseRecommendations | src/ai-analyzer.js:142-176 | The parsing loop, including the skip over a line it consumed as a fix, returns exactly the reference reading `Parse(text)`: one record per header line, in line order. |
| Recommendations.Normalize | src/ai-analyzer.js:153 | The stored priority is the token in upper case, except that `MED` becomes `MEDIUM`. |
| Recommendations.Build | src/ai-analyzer.js:153-171 | A record keeps the header's priority and issue. The fix is the header's own fix first, then a non-empty next-line fix, then the issue. Neither issue nor fix is ever empty. |
| Recommendations.Classify | src/ai-analyzer.js:147-161 | A line is read first as a header (after trimming). Only a non-header line can be a fix line, and it is one exactly when its trimmed text begins with `→`. |
| Recommendations.RecordsOf | src/ai-analyzer.js:146-173 | There is one record per header reading, and every record has a non-empty issue and fix. |
| Recommendations.RecordsCount | src/ai-analyzer.js:146-172 | The number of records equals the number of header lines, and so is at most the number of lines. |
| Recommendations.RecordsAppend | src/ai-analyzer.js:146-173 | Parsing is local: the records of `a + b` are those of `a` followed by those of `b`, unless `a` ends with a header and `b` begins with an arrow line. |
| Recommendations.JunkLine | src/ai-analyzer.js:147-152 | A line that is neither a header nor an arrow line yields nothing and does not disturb the records around it. |
| Recommendations.JunkFree | src/ai-analyzer.js:150-152 | An arrow line that does not follow a header yields no record. |
| Recommendations.ArrowLineNotHeader | src/ai-analyzer.js:150-163 | An arrow line is never a header, so the line the loop skips could not have produced a record. |
| Recommendations.BlankText | src/ai-analyzer.js:142-152 | Empty or white-space-only text yields no recommendations. |
| Recommendations.ClassifyRender | src/ai-analyzer.js:147-150 | A rendered header line (one whose last character is not white space) reads back as that header. |
| Recommendations.InlineFix | src/ai-analyzer.js:150-171 | `N. [P] X → Y` followed by other lines yields the record (normalised P, trim X, trim Y), then the records of the other lines. Any later `→` stays inside the fix. |
| Recommendations.NextLineFix | src/ai-analyzer.js:157-165 | A header without a fix, followed by an arrow line, takes that line's fix (or its issue when the fix is empty). The arrow line yields no record of its own. |
| Recommendations.RecordsAtHead | src/ai-analyzer.js:146-172 | Lines starting with a header: the first record is built from that header and the line after it, and the rest are the records of the remaining lines. |
| Recommendations.FallbackFix | src/ai-analyzer.js:157-170 | A header without a fix whose next line is not an arrow line, or which is the last line, gets its issue as its fix. |
| Header.MatchHeader | src/ai-analyzer.js:150 | Whenever the matcher accepts a line, the pieces it returns are ones the expression can produce, and they glue back into exactly that line. |
| Header.MatchRender | src/ai-analyzer.js:150 | Every line made of well-formed pieces is accepted, with exactly those pieces: the first qualifying arrow splits issue from fix, the token alternatives are tried in order, and `PRIORITY:` is matched in any case. |
| Header.FirstToken | src/ai-analyzer.js:150 | The priority group's alternatives are tried in order. A found token is the first alternative followed by `]`: no earlier one is. With no result, no alternative is followed by `]`. |
| Text.Trim | src/ai-analyzer.js:147 | A trimmed string has no white space at either end and is no longer than the original. |
| Text.TrimShape | src/ai-analyzer.js:147 | `trim` removes exactly the leading and trailing runs of white space. What it keeps is a contiguous stretch of the input. |
| Text.TrimIdempotent | src/ai-analyzer.js:154-155 | Trimming twice is trimming once. |
| Text.TrimPadded | src/ai-analyzer.js:154-162 | White space around a trimmed non-empty string is exactly what `trim` removes. |
| Text.Split | src/ai-analyzer.js:143 | `split` yields at least one piece, and no piece contains the separator. |
| Text.JoinSplit | src/ai-analyzer.js:143 | Joining the pieces of a split gives back the original text. |
| Text.SplitJoin | src/ai-analyzer.js:143 | Splitting a join of separator-free pieces gives back those pieces. |
| Text.UpperIdempotent | src/ai-analyzer.js:153 | Upper-casing twice is upper-casing once: no lower-case ASCII letter survives it. |
| Text.IgnoreCaseVariants | src/ai-analyzer.js:150 | Against a pattern with no lower-case ASCII letter, the `/i` comparison accepts exactly the texts that spell the pattern with each letter in either case. |
| Text.Includes | src/html-analyzer.js:80 | `includes` holds exactly when the pattern occurs somewhere in the string. |
| Text.ReplacePrefix | src/html-analyzer.js:110 | Replacing a pattern that begins the string with nothing strips exactly that prefix. |
| Text.Utf16Length | src/html-analyzer.js:32-34 | `length` counts UTF-16 code units: between one and two per character. |
| Text.Utf16LengthAppend | src/html-analyzer.js:32-34 | The length of a concatenation is the sum of the lengths. |
| Text.Utf16LengthBmp | src/html-analyzer.js:32-34 | The reported length equals the number of characters exactly when every character lies in the Basic Multilingual Plane. |
| AiAnalyzer.Construct | src/ai-analyzer.js:9-28 | The analyzer is enabled exactly when the chosen provider has a key. When enabled, the provider is `openai` exactly when there is an OpenAI key and `AI_PROVIDER` is unset or `openai`, with the configured or default model. Otherwise the provider is Gemini and a Gemini key is present, so an explicit other provider overrides an OpenAI key. |
| AiAnalyzer.RequestHasKey | src/ai-analyzer.js:16-23 | Every request a constructed analyzer makes goes to a provider whose key is set, using that provider's model. |
| AiAnalyzer.Analyze | src/ai-analyzer.js:30-62 | The outcomes of `analyze`: disabled, with nothing asked; a prompt error escapes; a request error is reported as `Failed`; a reply gives `Generated`, carrying the reply verbatim and its parsed recommendations. |
| AiAnalyzer.DisabledIgnoresGenerator | src/ai-analyzer.js:31-33 | A disabled analyzer neither builds a prompt nor calls the generator, and returns an empty recommendation list. |
| AiAnalyzer.GeneratorErrorCaught | src/ai-analyzer.js:37-61 | An error thrown by the request is caught: `analyze` returns `Failed` with its message. |
| AiAnalyzer.PromptErrorEscapes | src/ai-analyzer.js:35-37 | An error thrown while building the prompt escapes `analyze`, whatever the generator would do. |
| AiAnalyzer.OneRequest | src/ai-analyzer.js:40-50 | The result depends on the generator only through the one request made. |
| AiAnalyzer.OutcomeShape | src/ai-analyzer.js:52-60 | `enabled` is set exactly when the request succeeded. Only a failure lacks a recommendation list, and every listed record has an issue and a fix. |
| HtmlAnalyzer.OrNull | src/html-analyzer.js:31-39 | The `null` default of the extractor: an absent or empty value becomes `null`, and any other value is kept. |
| HtmlAnalyzer.ExtractMeta | src/html-analyzer.js:29-41 | Each of the seven fields is `null` exactly when its source is absent or empty, and otherwise is that source. A length is 0 exactly when its field is `null`, and otherwise the UTF-16 length of the text. |
| HtmlAnalyzer.ExtractHeadings | src/html-analyzer.js:43-54 | There are six lists, h1 to h6. List k holds level k's stored texts (`LevelTexts`): every element of that level trimmed, with empty results dropped, in document order. Every stored text is trimmed and non-empty. |
| HtmlAnalyzer.LevelTextsMember | src/html-analyzer.js:46-51 | A text is stored under a level exactly when some element of that level trims to it and it is non-empty. |
| HtmlAnalyzer.LevelTextsAppend | src/html-analyzer.js:47-50 | Headings keep document order within each level. |
| HtmlAnalyzer.AnalyzeImages | src/html-analyzer.js:56-70 | `total` counts every image. `missingAlt` counts those whose alt is absent or blank, so it is at most `total`. The sample is the first `min(10, total)` images, in order. |
| HtmlAnalyzer.ExternalsMember | src/html-analyzer.js:77-86 | An href is listed as external exactly when it is on the page and starts with `http` without containing the host name. |
| HtmlAnalyzer.LinksBound | src/html-analyzer.js:77-86 | Every href is counted at most once: `internal + external` is at most the number of hrefs. |
| HtmlAnalyzer.AnalyzeLinks | src/html-analyzer.js:72-89 | `external` is the uncapped number of external hrefs, and `internal` the number of internal ones. `externalLinks` is the first `min(5, external)` external hrefs, in order. |
| HtmlAnalyzer.InternalsAppend | src/html-analyzer.js:77-86 | The internal count of two parts of a page is the sum of their counts. |
| HtmlAnalyzer.ExternalsAppend | src/html-analyzer.js:77-86 | The external hrefs of two parts of a page keep their order. |
| HtmlAnalyzer.ExtractSchema | src/html-analyzer.js:91-104 | At most one value is kept per JSON-LD block. |
| HtmlAnalyzer.SchemaMember | src/html-analyzer.js:94-101 | A value is kept exactly when some block parses to it: blocks that fail to parse are dropped silently. |
| HtmlAnalyzer.SchemaAppend | src/html-analyzer.js:94-101 | Surviving blocks keep document order. |
| HtmlAnalyzer.Collect | src/html-analyzer.js:106-128 | The keys of the Open Graph and Twitter objects are exactly the tags' keys. |
| HtmlAnalyzer.KeyStripsPrefix | src/html-analyzer.js:110 | A tag's key is its attribute with the `og:` or `twitter:` prefix removed. |
| HtmlAnalyzer.LastWins | src/html-analyzer.js:109-125 | For duplicate keys, the content of the last tag wins. |
| LighthouseRunner.FailedAudits | src/lighthouse-runner.js:35-43 | The length is `min(15, number of failed entries)`, and each item is a failed entry with its score below 1. |
| LighthouseRunner.FailedAuditsSnoc | src/lighthouse-runner.js:35-43 | No entries report nothing. One more entry adds its failed audit exactly when it failed and fewer than 15 failed before it. Together: the first ≤15 failed entries, in order. |
| LighthouseRunner.AllFailedReported | src/lighthouse-runner.js:35-43 | With at most 15 failed audits, every one of them is reported. |
| LighthouseRunner.FailedAuditsPrefix | src/lighthouse-runner.js:35-43 | The failed audits of a prefix of the entries come first, in order. |
| LighthouseRunner.Opportunities | src/lighthouse-runner.js:45-56 | The length is `min(10, number of opportunity entries)`, whatever their score. Each item is an opportunity entry, and its savings are that entry's `overallSavingsMs`, or 0 when it is absent. |
| LighthouseRunner.OpportunitiesSnoc | src/lighthouse-runner.js:45-56 | One more entry adds its opportunity exactly when it is an opportunity audit and fewer than 10 came before it. Together: the first ≤10, in order. |
| LighthouseRunner.OpportunitiesIgnoreDiagnostics | src/lighthouse-runner.js:45 | Whether a `diagnostics` audit exists makes no difference. |
| LighthouseRunner.Diagnostics | src/lighthouse-runner.js:58-65 | The length is `min(10, number of failed table entries)`, and each item is such an entry. |
| LighthouseRunner.DiagnosticsSnoc | src/lighthouse-runner.js:58-65 | One more entry adds its diagnostic exactly when it is a failed table audit and fewer than 10 came before it. Together: the first ≤10, in order. |
| LighthouseRunner.DiagnosticsAreFailed | src/lighthouse-runner.js:58-59 | Every diagnostic also satisfies the failed-audit test. |
| LighthouseRunner.OpportunitiesDiagnosticsDisjoint | src/lighthouse-runner.js:48-59 | With distinct audit ids, no audit is both an opportunity and a diagnostic. |
| LighthouseRunner.AuditFlags | src/lighthouse-runner.js:82-90 | The flags exist exactly when all seven audits are present, and each flag is true exactly when that audit's score is 1. |
| Formatter.ScoreBandOf | src/formatter.js:27-40 | 90 and above is good, 50 to 89 is fair, and below 50 needs work. The bands partition all scores. |
| Formatter.ScoreBandMonotone | src/formatter.js:31-37 | A higher score never lands in a lower band. |
| Formatter.VitalBandOf | src/formatter.js:54-58 | Up to the good limit is green, up to the fair limit is yellow, and beyond is red, with both limits inclusive. |
| Formatter.Limits | src/formatter.js:60-63 | The good limit of each vital lies below its fair limit. |
| Formatter.VitalBandMonotone | src/formatter.js:54-63 | A larger measurement never lands in a better band. |
| Formatter.LengthStatus | src/formatter.js:77-87 | Missing exactly when the value is absent or empty, passing exactly when its length is inside the window, and a warning otherwise. |
| Formatter.TitleStatusOfPage | src/formatter.js:77-81 | On a page, the title is missing exactly when its text is empty, and passes exactly when it has 50 to 60 UTF-16 code units. |
| Formatter.DescriptionStatusOfPage | src/formatter.js:83-87 | The same for the description, with a window of 150 to 160. |
| Formatter.CanonicalStatus | src/formatter.js:89-93 | The canonical link passes exactly when it is present, and never warns. |
| Formatter.H1CheckOfPage | src/formatter.js:101 | The H1 check passes exactly when the page has one `h1` whose text is not blank. |
| Formatter.ShowRecommendations | src/formatter.js:125 | The section is shown exactly when the analysis succeeded with a non-empty list. A failed analysis, which has no list, is never shown. |
| Formatter.BlankReplyHidden | src/formatter.js:125 | A blank reply from the generator shows no recommendations section. |
| Formatter.BadgeRoundTrip | src/formatter.js:130-132 | Every printed badge (`HIGH`, `MED`, `LOW`) reads back through the parser's priority rule as the priority it was printed for. |
| Formatter.Items | src/formatter.js:129-136 | One item per recommendation, numbered from 1 in list order, carrying its issue and fix. Its badge is the priority's badge, and it reads back through the parser's priority rule as that priority. |
| Cli.WritesOutsideJson | src/cli.js:36-44 | Both callers save exactly outside JSON mode: a single audit (line 118) passes the JSON switch as `jsonOutput`, and a batch (line 64) passes it as `silent`. |
| Cli.AuditSingle | src/cli.js:14-47 | The stages run in order: probe, HTML, AI, then the save outside JSON mode. The first stage to throw ends the audit with its message, and later stages are not started. The report carries the stage results. |
| Cli.QuietIgnoresSave | src/cli.js:36-44 | An audit that does not save never depends on the save stage. |
| Cli.SaveFailureFails | src/cli.js:38-43 | A failing save fails an audit whose stages all succeeded, and only when saving. |
| Cli.AiStage | src/cli.js:31-32 | The AI stage throws exactly when the analyzer is enabled and the prompt throws, and then with the prompt's message. When it returns, the result is `Disabled` exactly when the analyzer is disabled. |
| Cli.GeneratorNeverFails | src/cli.js:21-32 | With the real AI stage, a quiet audit fails exactly when the probe, the HTML analysis or (when enabled) the prompt throws. A failing AI request never fails it. |
| Cli.BatchEntryOf | src/cli.js:63-71 | The entry for a URL carries that URL, and is a success exactly when its audit returns. |
| Cli.AuditBatch | src/cli.js:49-98 | There is one entry per URL, in input order, each that URL's own outcome, with its audits saving exactly outside JSON mode. The counts add up: `successful + failed == total == #urls`. |
| Cli.Urls | src/cli.js:101 | The URLs are exactly the user arguments not starting with `--`: each such argument is present, nothing else is, and there are as many URLs as such arguments. |
| Cli.UrlsSnoc | src/cli.js:101 | There are no URLs before the first user argument, and each further argument appends itself exactly when it is not an option. This fixes order and repeats: `a a` is a batch of two. |
| Cli.OptionsIgnored | src/cli.js:101 | Options never become URLs: appending options leaves the URLs unchanged. |
| Cli.Route | src/cli.js:100-121 | No URL is a usage error, one URL is a single audit, and several are a batch. JSON mode is `--json` anywhere on the command line. |
| Cli.ExitCode | src/cli.js:100-126 | The exit status is 1 exactly when there is no URL, when the single audit throws, or when a batch outside JSON mode fails to write its report file. |
| Cli.BatchSucceeds | src/cli.js:57-72 | The audits of a batch never fail the process: with the batch file written, or in JSON mode, the status is 0 whatever they do. |
| Cli.BatchWriteFails | src/cli.js:91-124 | Outside JSON mode, a batch whose report file cannot be written exits with status 1. |

## Left out

- `buildPrompt` (src/ai-analyzer.js:64-140) is not modelled. `AiAnalyzer.Analyze` receives its completion (the prompt text, or the message it threw), and `Cli.AiStage` takes it as a parameter.
- `analyzeTechnical` and the `technical` field (src/html-analyzer.js:25, 130-141) are not modelled. They only count selector matches.
- The fetch, the Lighthouse run and the AI SDK calls are parameters. So are the cheerio queries, `JSON.parse` and `new URL(...).hostname`.
- `LighthouseRunner.run`'s `scores` and `metrics` (src/lighthouse-runner.js:67-81) are not modelled, because they are float rounding of values the browser produces.
- Rendering is not modelled: console output, chalk colours, the tables and the exact report text. This includes the truncated title in the meta table and the joined H1 list.
- Timestamps and the batch duration are dropped from reports and summaries.
- `AiAnalyzer.Construct`: an environment variable is a string, and the empty string stands for an unset variable. The source only tests the variables for truthiness, so the two cannot be told apart.
- `AiAnalyzer.Construct`: the Gemini model object that `getGenerativeModel` returns is replaced by its model name, so a generated result's `model` field is that name rather than the object.
- `AiAnalyzer.Analyze`: a reply whose text is `null` (possible from the OpenAI API) is not modelled separately. Splitting it throws inside the `try`, so it is an `Err` of the generator and ends as `Failed`.
- `Cli.AuditSingle`: the save stage stands for formatting the report, computing the file name from the host name, and writing the file. Any of them may throw, but which one threw is not distinguished. Printing the JSON report is assumed not to throw.
- `Cli.ExitCode`: `process.exit` is its result. The batch report write is an abstract outcome, and the batch's own console output is assumed not to throw.
- `Cli.AuditBatch`: each stage is a function of the URL. A URL given twice is therefore audited twice with the same outcome, while the source reaches the network on each run, and one run may throw while the other succeeds.
- `HtmlAnalyzer.Collect`: keys are compared as strings. The special behaviour of a key such as `__proto__` on a plain JavaScript object is not modelled.
- `LighthouseRunner.FailedAudits`: the audits arrive as the ordered entries of `Object.entries(lhr.audits)`. The ordering rule itself, with integer-like keys first, is not modelled.
- `Text.Upper`: only ASCII letters are upper-cased. This is exact for the priority token, which a non-unicode `/i` match restricts to ASCII letters.
- `Text.IsSpace`: the white-space set is the one of the ECMAScript standard (WhiteSpace and LineTerminator). Characters that later Unicode versions add to the space separators are not tracked.

=== FILE: ai_analyzer.dfy ===
/** `AIAnalyzer` around the parser (src/ai-analyzer.js:9-62): which
    provider the constructor picks from the environment, and the three
    outcomes of `analyze`.

    Environment variables are strings, the empty string standing for an
    unset variable (the source only tests them for truthiness). The prompt
    is the completion of `buildPrompt`: its text, or the message it threw.
    The call to the provider's SDK is the parameter `generate`: given which
    backend and model are asked with which prompt, it yields the reply text
    or the message of the error it threw. */
module AiAnalyzer {

  import opened Base
  import opened Recommendations

  const OpenAiProvider: string := "openai"
  const GeminiProvider: string := "gemini"
  const DefaultOpenAiModel: string := "gpt-5-mini"
  const GeminiModel: string := "gemini-2.0-flash-exp"

  /** The variables the constructor reads: `AI_PROVIDER`, `GEMINI_API_KEY`,
      `OPENAI_API_KEY` and `OPENAI_MODEL`. */
  datatype Env = Env(aiProvider: string, geminiKey: string, openaiKey: string, openaiModel: string)

  /** A constructed analyzer. `model` is the model name handed to the SDK;
      it is empty when no client was created. */
  datatype Analyzer = Analyzer(provider: string, enabled: bool, model: string)

  /** The SDK request `analyze` makes. */
  datatype Call = OpenAiChat(model: string, prompt: string) | GeminiGenerate(model: string, prompt: string)

  /** What `analyze` resolves to. `Disabled` carries an empty recommendation
      list, `Failed` carries no list at all. */
  datatype Analysis =
    | Disabled
    | Failed(error: string)
    | Generated(provider: string, model: string, recommendations: seq<Recommendation>, raw: string)

  /** The provider the source would use: some key is present, and an
      explicit `AI_PROVIDER` other than `openai` rules out the OpenAI key. */
  predicate CanServe(env: Env)
  {
    env.geminiKey != ""
    || (env.openaiKey != "" && (env.aiProvider == "" || env.aiProvider == OpenAiProvider))
  }

  /** The constructor. The provider defaults to OpenAI when its key is set
      and no provider is named; a Gemini key serves every other choice. */
  function Construct(env: Env): (a: Analyzer)
    ensures a.enabled <==> CanServe(env)
    ensures a.enabled && a.provider == OpenAiProvider ==>
              env.openaiKey != "" && a.model == (if env.openaiModel != "" then env.openaiModel else DefaultOpenAiModel)
    ensures a.enabled && a.provider != OpenAiProvider ==>
              a.provider == GeminiProvider && env.geminiKey != "" && a.model == GeminiModel
    ensures a.enabled ==>
              (a.provider == OpenAiProvider
               <==> env.openaiKey != "" && (env.aiProvider == "" || env.aiProvider == OpenAiProvider))
    ensures !a.enabled ==> a.model == ""
  {
    var provider := if env.aiProvider != "" then env.aiProvider
                    else if env.openaiKey != "" then OpenAiProvider else GeminiProvider;
    var enabled := env.geminiKey != "" || env.openaiKey != "";
    if !enabled then Analyzer(provider, false, "")
    else if provider == OpenAiProvider && env.openaiKey != "" then
      Analyzer(provider, true, if env.openaiModel != "" then env.openaiModel else DefaultOpenAiModel)
    else if env.geminiKey != "" then Analyzer(GeminiProvider, true, GeminiModel)
    else Analyzer(provider, false, "")
  }

  /** The request an analyzer sends with a prompt: the OpenAI chat API
      exactly when its provider is `openai`. */
  function CallOf(a: Analyzer, prompt: string): (c: Call)
    ensures c.OpenAiChat? <==> a.provider == OpenAiProvider
    ensures c.model == a.model && c.prompt == prompt
  {
    if a.provider == OpenAiProvider then OpenAiChat(a.model, prompt) else GeminiGenerate(a.model, prompt)
  }

  /** `analyze`: nothing is asked of a disabled analyzer; the prompt is
      built outside the `try`, so an error thrown while building it escapes
      (`Err`); an error thrown by the request (or by parsing its reply) is
      caught and reported; a reply is parsed into recommendations and kept
      verbatim. */
  function Analyze(a: Analyzer, prompt: Result<string, string>, generate: Call -> Result<string, string>): (r: Result<Analysis, string>)
    ensures r.Err? <==> a.enabled && prompt.Err?
    ensures r.Err? ==> r.error == prompt.error
    ensures r.Ok? && r.value.Disabled? <==> !a.enabled
    ensures r.Ok? && r.value.Failed? <==> a.enabled && prompt.Ok? && generate(CallOf(a, prompt.value)).Err?
    ensures r.Ok? && r.value.Failed? ==> generate(CallOf(a, prompt.value)) == Err(r.value.error)
    ensures r.Ok? && r.value.Generated? ==>
              && prompt.Ok?
              && generate(CallOf(a, prompt.value)) == Ok(r.value.raw)
              && r.value.recommendations == Parse(r.value.raw)
              && r.value.provider == a.provider && r.value.model == a.model
  {
    if !a.enabled then Ok(Disabled)
    else
      match prompt
      case Err(e) => Err(e)
      case Ok(p) =>
        match generate(CallOf(a, p))
        case Err(e) => Ok(Failed(e))
        case Ok(text) => Ok(Generated(a.provider, a.model, Parse(text), text))
  }

  /** The `enabled` flag of the result. */
  function Enabled(r: Analysis): bool
  {
    r.Generated?
  }

  /** The `recommendations` field of the result, absent after a failure. */
  function RecommendationsOf(r: Analysis): Option<seq<Recommendation>>
  {
    match r
    case Disabled => Some([])
    case Failed(_) => None
    case Generated(_, _, recs, _) => Some(recs)
  }

  /** A disabled analyzer never calls the generator: its result is the same
      whatever the generator would do. */
  lemma DisabledIgnoresGenerator(a: Analyzer, p1: Result<string, string>, p2: Result<string, string>,
                                  g1: Call -> Result<string, string>, g2: Call -> Result<string, string>)
    requires !a.enabled
    ensures Analyze(a, p1, g1) == Analyze(a, p2, g2) == Ok(Disabled)
    ensures RecommendationsOf(Analyze(a, p1, g1).value) == Some([])
  {
  }

  /** The result depends on the generator only through the one request the
      analyzer makes. */
  lemma OneRequest(a: Analyzer, prompt: string, g1: Call -> Result<string, string>, g2: Call -> Result<string, string>)
    requires g1(CallOf(a, prompt)) == g2(CallOf(a, prompt))
    ensures Analyze(a, Ok(prompt), g1) == Analyze(a, Ok(prompt), g2)
  {
  }

  /** An error thrown by the request is caught: with a prompt built, an
      enabled analyzer always returns, reporting the error. */
  lemma GeneratorErrorCaught(a: Analyzer, prompt: string, generate: Call -> Result<string, string>)
    requires a.enabled && generate(CallOf(a, prompt)).Err?
    ensures Analyze(a, Ok(prompt), generate) == Ok(Failed(generate(CallOf(a, prompt)).error))
  {
  }

  /** An error thrown while building the prompt escapes, whatever the
      generator would have done. */
  lemma PromptErrorEscapes(a: Analyzer, e: string, generate: Call -> Result<string, string>)
    requires a.enabled
    ensures Analyze(a, Err(e), generate) == Err(e)
  {
  }

  /** Every request a constructed analyzer makes goes to a provider whose
      key is set, with the model chosen for it. */
  lemma RequestHasKey(env: Env, prompt: string)
    requires Construct(env).enabled
    ensures match CallOf(Construct(env), prompt)
            case OpenAiChat(m, _) => env.openaiKey != "" && m == (if env.openaiModel != "" then env.openaiModel else DefaultOpenAiModel)
            case GeminiGenerate(m, _) => env.geminiKey != "" && m == GeminiModel
  {
  }

  /** Successful analyses carry records that all have an issue and a fix,
      and the enabled flag is set exactly then. */
  lemma OutcomeShape(a: Analyzer, prompt: string, generate: Call -> Result<string, string>)
    ensures Analyze(a, Ok(prompt), generate).Ok?
    ensures var r := Analyze(a, Ok(prompt), generate).value;
            && (Enabled(r) <==> a.enabled && generate(CallOf(a, prompt)).Ok?)
            && (RecommendationsOf(r).None? <==> r.Failed?)
            && (RecommendationsOf(r).Some? ==> forall x :: x in RecommendationsOf(r).value ==> Actionable(x))
  {
  }
}

=== FILE: base.dfy ===
/** Small generic vocabulary shared by every module of the model:
    optional values, success/failure outcomes, and order-preserving
    filtering and counting over sequences. */
module Base {

  /** A JavaScript value that may be `null`/`undefined`. */
  datatype Option<+T> = None | Some(value: T)

  /** The completion of a call that may throw: a value or an error message. */
  datatype Result<+T, +E> = Ok(value: T) | Err(error: E)

  function Min(a: int, b: int): int
  {
    if a <= b then a else b
  }

  lemma AppendAssoc<T>(a: seq<T>, b: seq<T>, c: seq<T>)
    ensures a + (b + c) == (a + b) + c
  {
  }

  lemma ConsPair<T>(a: T, b: T, c: seq<T>)
    ensures [a, b] + c == [a] + ([b] + c)
  {
  }

  /** The last element of a concatenation with a non-empty right part. */
  lemma LastOfAppend<T>(a: seq<T>, b: seq<T>)
    requires |b| > 0
    ensures |a + b| > 0 && (a + b)[|a + b| - 1] == b[|b| - 1]
  {
  }

  /** `Array.prototype.filter`: the elements satisfying `p`, in order. */
  function Filter<T>(s: seq<T>, p: T -> bool): (r: seq<T>)
    ensures |r| <= |s|
    ensures forall i :: 0 <= i < |r| ==> p(r[i]) && r[i] in s
    ensures forall i :: 0 <= i < |s| && p(s[i]) ==> s[i] in r
    decreases |s|
  {
    if |s| == 0 then []
    else if p(s[0]) then [s[0]] + Filter(s[1..], p)
    else Filter(s[1..], p)
  }

  /** `Array.prototype.map`: `f` applied to every element, in order. */
  function Map<A, B>(s: seq<A>, f: A -> B): (r: seq<B>)
    ensures |r| == |s|
  {
    seq(|s|, i requires 0 <= i < |s| => f(s[i]))
  }

  /** Each element of the image is the image of the element at the same
      position. */
  lemma MapAt<A, B>(s: seq<A>, f: A -> B, i: nat)
    requires i < |s|
    ensures Map(s, f)[i] == f(s[i])
  {
  }

  /** Mapping distributes over concatenation. */
  lemma MapAppend<A, B>(a: seq<A>, b: seq<A>, f: A -> B)
    ensures Map(a + b, f) == Map(a, f) + Map(b, f)
  {
  }

  /** The image of a sequence with a first element. */
  lemma MapCons<A, B>(x: A, rest: seq<A>, f: A -> B)
    ensures Map([x] + rest, f) == [f(x)] + Map(rest, f)
  {
  }

  /** The image of a sequence with one element singled out. */
  lemma MapMiddle<A, B>(a: seq<A>, x: A, b: seq<A>, f: A -> B)
    ensures Map(a + [x] + b, f) == Map(a, f) + [f(x)] + Map(b, f)
  {
  }

  /** Mapping a suffix gives the suffix of the image. */
  lemma MapSuffix<A, B>(s: seq<A>, f: A -> B, i: nat)
    requires i <= |s|
    ensures Map(s, f)[i..] == Map(s[i..], f)
  {
  }

  /** The number of elements satisfying `p`. */
  function Count<T>(s: seq<T>, p: T -> bool): (n: nat)
    ensures n <= |s|
    decreases |s|
  {
    if |s| == 0 then 0
    else (if p(s[0]) then 1 else 0) + Count(s[1..], p)
  }

  /** Filtering distributes over concatenation: it keeps relative order. */
  lemma {:induction false} FilterAppend<T>(a: seq<T>, b: seq<T>, p: T -> bool)
    ensures Filter(a + b, p) == Filter(a, p) + Filter(b, p)
    decreases |a|
  {
    if |a| == 0 {
      assert a + b == b;
    } else {
      assert (a + b)[1..] == a[1..] + b;
      FilterAppend(a[1..], b, p);
    }
  }

  /** The filtered sequence has exactly `Count` elements. */
  lemma {:induction false} FilterCount<T>(s: seq<T>, p: T -> bool)
    ensures |Filter(s, p)| == Count(s, p)
    decreases |s|
  {
    if |s| > 0 {
      FilterCount(s[1..], p);
    }
  }

  /** Every element is counted either by `p` or by its negation. */
  lemma {:induction false} CountSplit<T>(s: seq<T>, p: T -> bool)
    ensures Count(s, p) + Count(s, x => !p(x)) == |s|
    decreases |s|
  {
    if |s| > 0 {
      CountSplit(s[1..], p);
    }
  }

  /** Counting after mapping counts the elements whose image satisfies `p`. */
  lemma {:induction false} CountMap<A, B>(s: seq<A>, f: A -> B, p: B -> bool, q: A -> bool)
    requires forall i :: 0 <= i < |s| ==> q(s[i]) == p(f(s[i]))
    ensures Count(Map(s, f), p) == Count(s, q)
    decreases |s|
  {
    if |s| > 0 {
      assert Map(s, f)[1..] == Map(s[1..], f);
      CountMap(s[1..], f, p, q);
    }
  }

  /** Counting distributes over concatenation. */
  lemma {:induction false} CountAppend<T>(a: seq<T>, b: seq<T>, p: T -> bool)
    ensures Count(a + b, p) == Count(a, p) + Count(b, p)
    decreases |a|
  {
    if |a| == 0 {
      assert a + b == b;
    } else {
      assert (a + b)[1..] == a[1..] + b;
      CountAppend(a[1..], b, p);
    }
  }

  /** `slice(0, n)`: the first `n` elements, or all of them when there are
      fewer. */
  function Take<T>(s: seq<T>, n: nat): (r: seq<T>)
    ensures |r| == Min(n, |s|)
    ensures forall i :: 0 <= i < |r| ==> r[i] == s[i]
  {
    s[..Min(n, |s|)]
  }

  /** `filter(p).map(f)`: the images of the elements satisfying `p`, in
      order. */
  function Select<A, B>(s: seq<A>, p: A -> bool, f: A -> B): (r: seq<B>)
    ensures |r| <= |s|
    decreases |s|
  {
    if |s| == 0 then []
    else if p(s[0]) then [f(s[0])] + Select(s[1..], p, f)
    else Select(s[1..], p, f)
  }

  /** Selecting keeps exactly one image per element satisfying `p`. */
  lemma {:induction false} SelectCount<A, B>(s: seq<A>, p: A -> bool, f: A -> B)
    ensures |Select(s, p, f)| == Count(s, p)
    decreases |s|
  {
    if |s| > 0 {
      SelectCount(s[1..], p, f);
    }
  }

  /** Everything selected is the image of an element satisfying `p`, and
      the image of every such element is selected. */
  lemma {:induction false} SelectMember<A, B>(s: seq<A>, p: A -> bool, f: A -> B)
    ensures forall y :: y in Select(s, p, f) ==> exists x :: x in s && p(x) && y == f(x)
    ensures forall x :: x in s && p(x) ==> f(x) in Select(s, p, f)
    decreases |s|
  {
    if |s| > 0 {
      SelectMember(s[1..], p, f);
      assert forall x :: x in s[1..] ==> x in s;
      assert forall x :: x in s ==> x == s[0] || x in s[1..];
    }
  }

  /** Selecting distributes over concatenation: it keeps relative order. */
  lemma {:induction false} SelectAppend<A, B>(a: seq<A>, b: seq<A>, p: A -> bool, f: A -> B)
    ensures Select(a + b, p, f) == Select(a, p, f) + Select(b, p, f)
    decreases |a|
  {
    if |a| == 0 {
      assert a + b == b;
    } else {
      assert (a + b)[1..] == a[1..] + b;
      SelectAppend(a[1..], b, p, f);
    }
  }

  /** Selecting with a cap, one more element at the end: its image is added
      exactly when it satisfies `p` and the cap has not been reached. */
  lemma {:induction false} TakeSelectSnoc<A, B>(a: seq<A>, x: A, p: A -> bool, f: A -> B, cap: nat)
    ensures Take(Select(a + [x], p, f), cap)
            == Take(Select(a, p, f), cap) + (if p(x) && Count(a, p) < cap then [f(x)] else [])
  {
    SelectAppend(a, [x], p, f);
    SelectCount(a, p, f);
    var s, t := Select(a, p, f), Select([x], p, f);
    assert t == (if p(x) then [f(x)] else []);
    if |s| >= cap {
      assert (s + t)[..cap] == s[..cap];
    } else if p(x) {
      assert (s + t)[..|s| + 1] == s + t;
    } else {
      assert s + t == s;
    }
  }
}

=== FILE: cli.dfy ===
/** The command-line driver (src/cli.js:14-126): one audit as stages in a
    fixed order, a batch of audits that isolates failures, and the dispatch
    on the command-line arguments.

    The stages (Lighthouse probe, HTML analysis, AI analysis, and saving the
    report file outside JSON mode) are parameters: each either yields its
    result or throws with a message. Console output, file names, file
    contents and timestamps are not modelled. */
module Cli {

  import opened Base
  import opened Text
  import opened AiAnalyzer

  /** `Save` stands for formatting the report, naming its file after the
      host name, and writing the file: any of them may throw. */
  datatype Stage = Lighthouse | Html | Ai | Save

  /** The report of one page, without its timestamp. */
  datatype Report<L, H, A> = Report(url: string, lighthouse: L, html: H, ai: A)

  /** The stages an audit runs, each of which may throw. The AI stage
      receives the page and the two earlier results; the save stage the
      finished report. */
  datatype Stages<!L, !H, !A> = Stages(
    probe: string -> Result<L, string>,
    analyzeHtml: string -> Result<H, string>,
    analyzeAi: (string, L, H) -> Result<A, string>,
    save: Report<L, H, A> -> Result<(), string>)

  /** The outcome of one audit and the stages it started, in order. */
  datatype Audit<L, H, A> = Audit(outcome: Result<Report<L, H, A>, string>, started: seq<Stage>)

  const AllStages: seq<Stage> := [Lighthouse, Html, Ai, Save]

  /** Whether an audit formats and saves its report: only when it neither
      prints JSON nor runs silently, which for both callers is outside JSON
      mode (a batch passes its JSON switch as `silent`). */
  function Writes(jsonOutput: bool, silent: bool): bool
  {
    !silent && !jsonOutput
  }

  /** Both callers save exactly outside JSON mode: a single audit passes
      its JSON switch as `jsonOutput`, a batch passes it as `silent`. */
  lemma WritesOutsideJson(json: bool)
    ensures Writes(json, false) == Writes(false, json) == !json
  {
  }

  /** The report of the three analysis stages, when none of them throws. */
  function Analysed<L, H, A>(url: string, st: Stages<L, H, A>): Option<Report<L, H, A>>
  {
    if st.probe(url).Ok? && st.analyzeHtml(url).Ok?
       && st.analyzeAi(url, st.probe(url).value, st.analyzeHtml(url).value).Ok?
    then Some(Report(url, st.probe(url).value, st.analyzeHtml(url).value,
                     st.analyzeAi(url, st.probe(url).value, st.analyzeHtml(url).value).value))
    else None
  }

  /** `auditSingle`: probe, then HTML, then AI, then (when `writes`) the
      report file, with no local catch. The first stage that throws ends the
      audit with its message; the later stages are not started. */
  function AuditSingle<L, H, A>(url: string, writes: bool, st: Stages<L, H, A>): (a: Audit<L, H, A>)
    ensures 1 <= |a.started| <= |AllStages| && a.started == AllStages[..|a.started|]
    ensures Html in a.started <==> st.probe(url).Ok?
    ensures Ai in a.started <==> st.probe(url).Ok? && st.analyzeHtml(url).Ok?
    ensures Save in a.started <==> writes && Analysed(url, st).Some?
    ensures st.probe(url).Err? ==> a.outcome == Err(st.probe(url).error)
    ensures st.probe(url).Ok? && st.analyzeHtml(url).Err? ==> a.outcome == Err(st.analyzeHtml(url).error)
    ensures st.probe(url).Ok? && st.analyzeHtml(url).Ok?
            && st.analyzeAi(url, st.probe(url).value, st.analyzeHtml(url).value).Err? ==>
              a.outcome == Err(st.analyzeAi(url, st.probe(url).value, st.analyzeHtml(url).value).error)
    ensures writes && Analysed(url, st).Some? && st.save(Analysed(url, st).value).Err? ==>
              a.outcome == Err(st.save(Analysed(url, st).value).error)
    ensures a.outcome.Ok? <==> Analysed(url, st).Some? && (writes ==> st.save(Analysed(url, st).value).Ok?)
    ensures a.outcome.Ok? ==> a.outcome.value == Analysed(url, st).value && a.outcome.value.url == url
  {
    match st.probe(url)
    case Err(e) => Audit(Err(e), [Lighthouse])
    case Ok(lighthouse) =>
      match st.analyzeHtml(url)
      case Err(e) => Audit(Err(e), [Lighthouse, Html])
      case Ok(html) =>
        match st.analyzeAi(url, lighthouse, html)
        case Err(e) => Audit(Err(e), [Lighthouse, Html, Ai])
        case Ok(ai) =>
          var report := Report(url, lighthouse, html, ai);
          if !writes then Audit(Ok(report), [Lighthouse, Html, Ai])
          else
            match st.save(report)
            case Err(e) => Audit(Err(e), AllStages)
            case Ok(_) => Audit(Ok(report), AllStages)
  }

  /** An audit that does not save never looks at the save stage. */
  lemma QuietIgnoresSave<L, H, A>(url: string, st: Stages<L, H, A>, save: Report<L, H, A> -> Result<(), string>)
    ensures AuditSingle(url, false, st) == AuditSingle(url, false, st.(save := save))
  {
  }

  /** A failure to save the report fails an audit whose stages all
      succeeded. */
  lemma SaveFailureFails<L, H, A>(url: string, st: Stages<L, H, A>)
    requires Analysed(url, st).Some? && st.save(Analysed(url, st).value).Err?
    ensures AuditSingle(url, true, st).outcome.Err?
    ensures AuditSingle(url, false, st).outcome.Ok?
  {
  }

  // ------------------------------------------------------------- AI stage

  /** The AI stage `auditSingle` runs: a constructed analyzer's `analyze`,
      given the completion of `buildPrompt` on the stage's inputs. */
  function AiStage<L(!new), H(!new)>(a: Analyzer, buildPrompt: (string, L, H) -> Result<string, string>,
                         generate: Call -> Result<string, string>): (stage: (string, L, H) -> Result<Analysis, string>)
    ensures forall u, l, h :: stage(u, l, h).Err? <==> a.enabled && buildPrompt(u, l, h).Err?
    ensures forall u, l, h :: stage(u, l, h).Err? ==> stage(u, l, h).error == buildPrompt(u, l, h).error
    ensures forall u, l, h :: stage(u, l, h).Ok? ==> (stage(u, l, h).value.Disabled? <==> !a.enabled)
  {
    var stage := (u, l, h) => Analyze(a, buildPrompt(u, l, h), generate);
    assert forall u, l, h :: stage(u, l, h) == Analyze(a, buildPrompt(u, l, h), generate);
    stage
  }

  /** With the real AI stage, an audit fails only through the probe, the
      HTML analysis, the prompt or the save: a failing AI request never
      fails it, and the outcome does not depend on whether the request
      succeeds. */
  lemma GeneratorNeverFails<L(!new), H(!new)>(url: string, st: Stages<L, H, Analysis>, a: Analyzer,
                                  buildPrompt: (string, L, H) -> Result<string, string>,
                                  generate: Call -> Result<string, string>)
    requires st.analyzeAi == AiStage(a, buildPrompt, generate)
    ensures AuditSingle(url, false, st).outcome.Err? <==>
              || st.probe(url).Err?
              || st.analyzeHtml(url).Err?
              || (a.enabled && buildPrompt(url, st.probe(url).value, st.analyzeHtml(url).value).Err?)
  {
  }

  /** One entry of the batch results. */
  datatype BatchEntry<L, H, A> = Success(report: Report<L, H, A>) | Failure(url: string, error: string)

  function UrlOf<L, H, A>(e: BatchEntry<L, H, A>): string
  {
    match e
    case Success(r) => r.url
    case Failure(u, _) => u
  }

  predicate IsSuccess<L, H, A>(e: BatchEntry<L, H, A>)
  {
    e.Success?
  }

  predicate IsFailure<L, H, A>(e: BatchEntry<L, H, A>)
  {
    e.Failure?
  }

  /** The entry recorded for one URL: its report, or the message it threw. */
  function BatchEntryOf<L, H, A>(url: string, writes: bool, st: Stages<L, H, A>): (e: BatchEntry<L, H, A>)
    ensures UrlOf(e) == url
    ensures e.Success? <==> AuditSingle(url, writes, st).outcome.Ok?
  {
    match AuditSingle(url, writes, st).outcome
    case Ok(r) => Success(r)
    case Err(m) => Failure(url, m)
  }

  datatype Summary = Summary(total: nat, successful: nat, failed: nat)

  /** Every entry is a success or a failure. */
  lemma {:induction false} SuccessSplit<L, H, A>(s: seq<BatchEntry<L, H, A>>)
    ensures Count(s, IsSuccess) + Count(s, IsFailure) == |s|
    decreases |s|
  {
    if |s| > 0 {
      SuccessSplit(s[1..]);
    }
  }

  /** `auditBatch`: one entry per URL, in input order, each depending on
      that URL alone; an audit that throws is recorded and the loop goes
      on. Its audits save their reports exactly outside JSON mode. The
      summary counts add up to the number of URLs. */
  method AuditBatch<L, H, A>(urls: seq<string>, jsonOutput: bool, st: Stages<L, H, A>)
    returns (results: seq<BatchEntry<L, H, A>>, summary: Summary)
    ensures |results| == |urls|
    ensures forall i :: 0 <= i < |urls| ==> UrlOf(results[i]) == urls[i]
    ensures forall i :: 0 <= i < |urls| ==> results[i] == BatchEntryOf(urls[i], !jsonOutput, st)
    ensures summary.total == |urls| && summary.successful + summary.failed == summary.total
    ensures summary.successful == Count(results, IsSuccess) && summary.failed == Count(results, IsFailure)
  {
    results := [];
    var i := 0;
    while i < |urls|
      invariant 0 <= i <= |urls|
      invariant |results| == i
      invariant forall j :: 0 <= j < i ==> results[j] == BatchEntryOf(urls[j], !jsonOutput, st)
    {
      var url := urls[i];
      var audit := AuditSingle(url, Writes(false, jsonOutput), st);
      match audit.outcome {
        case Ok(report) =>
          results := results + [Success(report)];
        case Err(message) =>
          results := results + [Failure(url, message)];
      }
      i := i + 1;
    }
    SuccessSplit(results);
    summary := Summary(|urls|, Count(results, IsSuccess), Count(results, IsFailure));
  }

  // ------------------------------------------------------------- dispatch

  const JsonFlag: string := "--json"

  /** An argument that is not an option. */
  predicate IsPositional(arg: string)
  {
    !StartsWith(arg, "--")
  }

  /** `process.argv.slice(2)`: the arguments after the runtime and the
      script. */
  function UserArgs(argv: seq<string>): seq<string>
  {
    if |argv| <= 2 then [] else argv[2..]
  }

  /** The URLs: the user arguments that are not options, in order. */
  function Urls(argv: seq<string>): (urls: seq<string>)
    ensures forall i :: 0 <= i < |urls| ==> IsPositional(urls[i]) && urls[i] in UserArgs(argv)
    ensures forall a :: a in UserArgs(argv) && IsPositional(a) ==> a in urls
    ensures |urls| == Count(UserArgs(argv), IsPositional)
  {
    FilterCount(UserArgs(argv), IsPositional);
    Filter(UserArgs(argv), IsPositional)
  }

  /** The URLs in order and with repeats: none before the first user
      argument, and each further argument adds itself exactly when it is
      not an option. */
  lemma UrlsSnoc(argv: seq<string>, x: string)
    ensures |argv| <= 2 ==> Urls(argv) == []
    ensures |argv| >= 2 ==> Urls(argv + [x]) == Urls(argv) + (if IsPositional(x) then [x] else [])
  {
    if |argv| >= 2 {
      assert UserArgs(argv + [x]) == UserArgs(argv) + [x];
      FilterAppend(UserArgs(argv), [x], IsPositional);
      assert [x][1..] == [];
    }
  }

  datatype Mode = Usage | Single(url: string) | Batch(urls: seq<string>)

  /** `run`'s choice: no URL is a usage error, one URL a single audit,
      several a batch. The JSON switch is `--json` anywhere on the command
      line, including before the user arguments. */
  function Route(argv: seq<string>): (r: (Mode, bool))
    ensures r.0.Usage? <==> |Urls(argv)| == 0
    ensures r.0.Single? <==> |Urls(argv)| == 1
    ensures r.0.Single? ==> r.0.url == Urls(argv)[0]
    ensures r.0.Batch? ==> |r.0.urls| >= 2 && r.0.urls == Urls(argv)
    ensures r.1 <==> JsonFlag in argv
  {
    var args := Urls(argv);
    var json := JsonFlag in argv;
    if |args| == 0 then (Usage, json)
    else if |args| == 1 then (Single(args[0]), json)
    else (Batch(args), json)
  }

  /** The exit status of `run` (0 when it returns normally). `batchWrite`
      is the completion of writing the batch report file, which happens
      only outside JSON mode. */
  function ExitCode<L, H, A>(argv: seq<string>, st: Stages<L, H, A>, batchWrite: Result<(), string>): (code: int)
    ensures code == 1 <==>
              || |Urls(argv)| == 0
              || (|Urls(argv)| == 1 && AuditSingle(Urls(argv)[0], JsonFlag !in argv, st).outcome.Err?)
              || (|Urls(argv)| >= 2 && JsonFlag !in argv && batchWrite.Err?)
    ensures code == 0 || code == 1
  {
    var (mode, jsonOutput) := Route(argv);
    match mode
    case Usage => 1
    case Single(url) => if AuditSingle(url, Writes(jsonOutput, false), st).outcome.Err? then 1 else 0
    case Batch(_) => if Writes(false, jsonOutput) && batchWrite.Err? then 1 else 0
  }

  /** The audits of a batch never fail the process: with its report file
      written, or in JSON mode, the exit status is 0 whatever they do. */
  lemma BatchSucceeds<L, H, A>(argv: seq<string>, st1: Stages<L, H, A>, st2: Stages<L, H, A>,
                               w1: Result<(), string>, w2: Result<(), string>)
    requires |Urls(argv)| >= 2
    requires JsonFlag in argv || (w1.Ok? && w2.Ok?)
    ensures ExitCode(argv, st1, w1) == ExitCode(argv, st2, w2) == 0
  {
  }

  /** Outside JSON mode, a batch whose report file cannot be written fails
      the process. */
  lemma BatchWriteFails<L, H, A>(argv: seq<string>, st: Stages<L, H, A>, w: Result<(), string>)
    requires |Urls(argv)| >= 2 && JsonFlag !in argv && w.Err?
    ensures ExitCode(argv, st, w) == 1
  {
  }

  /** Options never become URLs, and dropping them leaves the URLs in their
      original order. */
  lemma OptionsIgnored(argv: seq<string>, flags: seq<string>)
    requires |argv| >= 2
    requires forall i :: 0 <= i < |flags| ==> !IsPositional(flags[i])
    ensures Urls(argv + flags) == Urls(argv)
  {
    assert UserArgs(argv + flags) == UserArgs(argv) + flags;
    FilterAppend(UserArgs(argv), flags, IsPositional);
    NoPositional(flags);
  }

  /** A list of options holds no URL. */
  lemma {:induction false} NoPositional(flags: seq<string>)
    requires forall i :: 0 <= i < |flags| ==> !IsPositional(flags[i])
    ensures Filter(flags, IsPositional) == []
    decreases |flags|
  {
    if |flags| > 0 {
      NoPositional(flags[1..]);
    }
  }
}

=== FILE: formatter.dfy ===
/** The classification rules of `ReportFormatter.format`
    (src/formatter.js:27-40, 54-63, 77-101, 125-137): which band a score or
    a vital falls in, the status of the meta tags, the H1 check, and when
    and how recommendations are listed. Colours, tables and the rendered
    text are not modelled. */
module Formatter {

  import opened Base
  import opened Text
  import opened Recommendations
  import opened AiAnalyzer
  import opened HtmlAnalyzer
  import opened Header

  // ---------------------------------------------------------- score bands

  datatype ScoreBand = NeedsWork | Fair | Good

  function Rank(b: ScoreBand): nat
  {
    match b
    case NeedsWork => 0
    case Fair => 1
    case Good => 2
  }

  /** The band of a category score out of 100: 90 and above is good, 50 to
      89 is fair, below 50 needs work. */
  function ScoreBandOf(score: int): (b: ScoreBand)
    ensures b == Good <==> 90 <= score
    ensures b == Fair <==> 50 <= score < 90
    ensures b == NeedsWork <==> score < 50
  {
    if score >= 90 then Good
    else if score >= 50 then Fair
    else NeedsWork
  }

  /** A higher score never lands in a lower band. */
  lemma ScoreBandMonotone(s1: int, s2: int)
    requires s1 <= s2
    ensures Rank(ScoreBandOf(s1)) <= Rank(ScoreBandOf(s2))
  {
  }

  // ---------------------------------------------------------- vital bands

  datatype VitalBand = Green | Yellow | Red

  function VitalRank(b: VitalBand): nat
  {
    match b
    case Green => 0
    case Yellow => 1
    case Red => 2
  }

  /** The four vitals the report shows. */
  datatype Vital = Lcp | Cls | Fcp | Tti

  /** The good and fair limits of a vital (milliseconds, or the unitless
      layout shift). */
  function Limits(v: Vital): (l: (real, real))
    ensures 0.0 < l.0 < l.1
  {
    match v
    case Lcp => (2500.0, 4000.0)
    case Cls => (0.1, 0.25)
    case Fcp => (1800.0, 3000.0)
    case Tti => (3800.0, 7300.0)
  }

  /** `vitalColor`: green up to and including the good limit, yellow up to
      and including the fair limit, red beyond. */
  function VitalBandOf(metric: real, good: real, fair: real): (b: VitalBand)
    requires good <= fair
    ensures b == Green <==> metric <= good
    ensures b == Yellow <==> good < metric <= fair
    ensures b == Red <==> fair < metric
  {
    if metric <= good then Green
    else if metric <= fair then Yellow
    else Red
  }

  /** The band of a measured vital. */
  function BandOf(v: Vital, metric: real): VitalBand
  {
    VitalBandOf(metric, Limits(v).0, Limits(v).1)
  }

  /** A larger measurement never lands in a better band. */
  lemma VitalBandMonotone(v: Vital, m1: real, m2: real)
    requires m1 <= m2
    ensures VitalRank(BandOf(v, m1)) <= VitalRank(BandOf(v, m2))
  {
  }

  // ------------------------------------------------------------ meta tags

  datatype Status = Pass | Warn | Missing

  const TitleWindow: (int, int) := (50, 60)
  const DescriptionWindow: (int, int) := (150, 160)

  /** The status of a meta value with a recommended length window: missing
      when absent or empty, passing when its length is inside the window
      (both ends included), a warning otherwise. */
  function LengthStatus(value: Option<string>, length: int, window: (int, int)): (s: Status)
    ensures s == Missing <==> value.None? || value.value == ""
    ensures s == Pass <==> value.Some? && value.value != "" && window.0 <= length <= window.1
  {
    if value.Some? && value.value != "" then
      (if length >= window.0 && length <= window.1 then Pass else Warn)
    else Missing
  }

  function TitleStatus(m: Meta): Status
  {
    LengthStatus(m.title, m.titleLength, TitleWindow)
  }

  function DescriptionStatus(m: Meta): Status
  {
    LengthStatus(m.description, m.descriptionLength, DescriptionWindow)
  }

  /** The canonical link passes exactly when it is present. */
  function CanonicalStatus(m: Meta): (s: Status)
    ensures s != Warn
    ensures s == Pass <==> m.canonical.Some? && m.canonical.value != ""
  {
    if m.canonical.Some? && m.canonical.value != "" then Pass else Missing
  }

  /** On extracted meta data, the title status depends only on the title
      text: missing when it is empty, passing when it has 50 to 60 UTF-16
      code units. */
  lemma TitleStatusOfPage(src: MetaSource)
    ensures TitleStatus(ExtractMeta(src)) == Missing <==> src.titleText == ""
    ensures TitleStatus(ExtractMeta(src)) == Pass <==> 50 <= Utf16Length(src.titleText) <= 60
  {
  }

  /** The same for the description, with a window of 150 to 160. */
  lemma DescriptionStatusOfPage(src: MetaSource)
    ensures DescriptionStatus(ExtractMeta(src)) == Missing <==> src.description.None? || src.description.value == ""
    ensures DescriptionStatus(ExtractMeta(src)) == Pass
            <==> src.description.Some? && 150 <= Utf16Length(src.description.value) <= 160
  {
  }

  // ------------------------------------------------------------- headings

  /** The H1 check passes exactly when one H1 text is stored. */
  function H1Check(h1: seq<string>): (ok: bool)
  {
    |h1| == 1
  }

  /** An element that is stored as an H1 text. */
  predicate StoredH1(e: HeadingElement)
  {
    e.level == 1 && Trim(e.text) != ""
  }

  /** One stored H1 text per `h1` element with visible text. */
  lemma {:induction false} H1Count(doc: seq<HeadingElement>)
    ensures |LevelTexts(doc, 1)| == Count(doc, StoredH1)
    decreases |doc|
  {
    if |doc| > 0 {
      H1Count(doc[1..]);
    }
  }

  /** On a page, the H1 check passes exactly when the page has one `h1`
      whose text is not blank: blank `h1`s are not counted. */
  lemma H1CheckOfPage(doc: seq<HeadingElement>)
    ensures H1Check(ExtractHeadings(doc)[0]) <==> Count(doc, StoredH1) == 1
  {
    H1Count(doc);
  }

  // ------------------------------------------------------ recommendations

  /** The recommendations section is shown when the analysis is enabled and
      has at least one recommendation; a failed analysis, which carries no
      list, is not enabled. */
  function ShowRecommendations(ai: Analysis): (show: bool)
    ensures show ==> RecommendationsOf(ai).Some? && |RecommendationsOf(ai).value| > 0
    ensures show <==> ai.Generated? && ai.recommendations != []
  {
    Enabled(ai) && RecommendationsOf(ai).Some? && |RecommendationsOf(ai).value| > 0
  }

  /** A blank reply from the generator shows no recommendations section. */
  lemma BlankReplyHidden(a: Analyzer, prompt: string, generate: Call -> Result<string, string>, text: string)
    requires generate(CallOf(a, prompt)) == Ok(text) && AllSpaces(text)
    ensures Analyze(a, Ok(prompt), generate).Ok?
    ensures !ShowRecommendations(Analyze(a, Ok(prompt), generate).value)
  {
    BlankText(text);
  }

  /** The badge printed for a priority: `MEDIUM` is shortened to `MED`. */
  function Badge(p: Priority): string
  {
    var n := Name(p);
    if n == "HIGH" then "HIGH"
    else if n == "MEDIUM" then "MED"
    else "LOW"
  }

  /** Every badge reads back, through the parser's priority rule, as the
      priority it was printed for. */
  lemma BadgeRoundTrip(p: Priority)
    ensures IsToken(Badge(p)) && Normalize(Badge(p)) == p
  {
    match p
    case High =>
      assert Upper("HIGH") == "HIGH";
    case Medium =>
      assert Upper("MED") == "MED";
    case Low =>
      assert Upper("LOW") == "LOW";
  }

  lemma BadgesRoundTrip()
    ensures forall p :: IsToken(Badge(p)) && Normalize(Badge(p)) == p
  {
    forall p: Priority
      ensures IsToken(Badge(p)) && Normalize(Badge(p)) == p
    {
      BadgeRoundTrip(p);
    }
  }

  /** One printed entry of the section. */
  datatype Item = Item(number: nat, badge: string, issue: string, fix: string)

  /** The entries of the section: numbered from 1 in list order. */
  function Items(recs: seq<Recommendation>): (r: seq<Item>)
    ensures |r| == |recs|
    ensures forall i :: 0 <= i < |r| ==> r[i].number == i + 1 && r[i].issue == recs[i].issue && r[i].fix == recs[i].fix
    ensures forall i :: 0 <= i < |r| ==> r[i].badge in ["HIGH", "MED", "LOW"]
    ensures forall i :: 0 <= i < |r| ==> r[i].badge == Badge(recs[i].priority)
    ensures forall i :: 0 <= i < |r| ==> IsToken(r[i].badge) && Normalize(r[i].badge) == recs[i].priority
  {
    BadgesRoundTrip();
    seq(|recs|, i requires 0 <= i < |recs| =>
      Item(i + 1, Badge(recs[i].priority), recs[i].issue, recs[i].fix))
  }
}

=== FILE: header.dfy ===
/** The recommendation-header grammar of `AIAnalyzer.parseRecommendations`
    (src/ai-analyzer.js:150), written as an explicit matcher instead of the
    regular expression

      ^\d+\.\s*\[(?:PRIORITY:\s*)?(HIGH|MEDIUM|MED|LOW)\]\s*(.+?)(?:→(.+))?$   (flag i)

    `MatchHeader` splits a line into the pieces the expression recognises;
    `Render` glues well-formed pieces back together. The two are inverse to
    each other, which pins the matcher down exactly. */
module Header {

  import opened Base
  import opened Text

  const Arrow: char := '→'

  /** The optional `PRIORITY:` label and the white space after it. */
  datatype Label = NoLabel | Label(keyword: string, gap: string)

  /** The pieces of a matched header line, in order. `token` is capture
      group 1, `issue` group 2 and `fix` group 3 (absent when the line has
      no qualifying arrow); none of them is trimmed yet. */
  datatype HeaderParts = HeaderParts(
    ordinal: string,  // \d+
    gap: string,      // \s* between "." and "["
    prefix: Label,     // (?:PRIORITY:\s*)?
    token: string,    // HIGH|MEDIUM|MED|LOW in any case
    lead: string,     // \s* after "]"
    issue: string,    // (.+?)
    fix: Option<string>)  // (?:→(.+))?

  /** The alternatives of the priority group, in the order the expression
      tries them. */
  const Tokens: seq<string> := ["HIGH", "MEDIUM", "MED", "LOW"]

  const LabelWord: string := "PRIORITY:"

  predicate IsToken(s: string)
  {
    EqualsIgnoreCase(s, "HIGH") || EqualsIgnoreCase(s, "MEDIUM")
    || EqualsIgnoreCase(s, "MED") || EqualsIgnoreCase(s, "LOW")
  }

  function LabelText(l: Label): string
  {
    match l
    case NoLabel => ""
    case Label(k, g) => k + g
  }

  /** The text of a header line made of the given pieces. */
  function Render(p: HeaderParts): string
  {
    p.ordinal + ("." + (p.gap + ("[" + (LabelText(p.prefix) + (p.token + ("]"
    + (p.lead + (p.issue + FixText(p.fix)))))))))
  }

  /** The arrow and the fix, when there is one. */
  function FixText(fix: Option<string>): string
  {
    match fix
    case None => ""
    case Some(y) => [Arrow] + y
  }

  /** Pieces the expression can produce: each piece is what its sub-pattern
      matches, greedy runs are maximal, and the issue stops at the first
      arrow that has a character on both sides. */
  predicate WellFormed(p: HeaderParts)
  {
    && |p.ordinal| > 0 && AllDigits(p.ordinal)
    && AllSpaces(p.gap)
    && (p.prefix.Label? ==> EqualsIgnoreCase(p.prefix.keyword, LabelWord) && AllSpaces(p.prefix.gap))
    && IsToken(p.token)
    && AllSpaces(p.lead)
    && |p.issue| > 0 && !IsSpace(p.issue[0]) && NoLineTerminator(p.issue)
    && match p.fix
       case Some(y) => |y| > 0 && NoLineTerminator(y) && Arrow !in p.issue[1..]
       case None => forall j :: 1 <= j < |p.issue| - 1 ==> p.issue[j] != Arrow
  }

  /** `s` begins with `word` (in any case) immediately followed by "]". */
  predicate WordThenBracket(s: string, word: string)
  {
    |s| > |word| && EqualsIgnoreCase(s[..|word|], word) && s[|word|] == ']'
  }

  /** Tries the alternatives `words` in order at the front of `s`; yields
      the length of the first one that is followed by "]". */
  function FirstToken(s: string, words: seq<string>): (n: Option<nat>)
    ensures n.Some? ==>
              exists i :: 0 <= i < |words| && n.value == |words[i]| && WordThenBracket(s, words[i])
                && forall j :: 0 <= j < i ==> !WordThenBracket(s, words[j])
    ensures n.None? ==> forall i :: 0 <= i < |words| ==> !WordThenBracket(s, words[i])
    decreases |words|
  {
    if |words| == 0 then None
    else if WordThenBracket(s, words[0]) then Some(|words[0]|)
    else
      var r := FirstToken(s, words[1..]);
      assert forall i :: 1 <= i < |words| ==> words[i] == words[1..][i - 1];
      r
  }

  /** A word followed by "]" that `FirstToken` finds among `Tokens` is a
      priority token. */
  lemma TokenFound(s: string, i: nat)
    requires i < |Tokens| && WordThenBracket(s, Tokens[i])
    ensures IsToken(s[..|Tokens[i]|])
  {
  }

  /** Matches `(HIGH|MEDIUM|MED|LOW)\]` at the front of `d`, yielding the
      token's length. */
  function TokenAt(d: string): (n: Option<nat>)
    ensures n.Some? ==> n.value < |d| && d[n.value] == ']' && IsToken(d[..n.value])
  {
    var r := FirstToken(d, Tokens);
    if r.Some? then
      var i :| 0 <= i < |Tokens| && r.value == |Tokens[i]| && WordThenBracket(d, Tokens[i]);
      TokenFound(d, i);
      r
    else r
  }

  /** What the bracketed tag matched: the label, the token and the text
      after the closing "]". */
  datatype Tag = Tag(prefix: Label, token: string, rest: string)

  /** The label-free reading of the tag. */
  function PlainTag(b: string): (r: Option<Tag>)
    ensures r.Some? ==> b == r.value.token + ("]" + r.value.rest)
    ensures r.Some? ==> IsToken(r.value.token) && r.value.prefix == NoLabel
  {
    match TokenAt(b)
    case None => None
    case Some(n) =>
      assert b == b[..n] + ("]" + b[n + 1..]);
      Some(Tag(NoLabel, b[..n], b[n + 1..]))
  }

  /** The labelled reading of the tag: `PRIORITY:` in any case, white
      space, then the token. */
  function LabelledTag(b: string): (r: Option<Tag>)
    ensures r.Some? ==> r.value.prefix.Label? && b == LabelText(r.value.prefix) + (r.value.token + ("]" + r.value.rest))
    ensures r.Some? ==> IsToken(r.value.token)
    ensures r.Some? ==> EqualsIgnoreCase(r.value.prefix.keyword, LabelWord) && AllSpaces(r.value.prefix.gap)
  {
    if |b| >= |LabelWord| && EqualsIgnoreCase(b[..|LabelWord|], LabelWord) then
      var c := b[|LabelWord|..];
      var g := LeadingSpaces(c);
      var d := c[g..];
      match PlainTag(d)
      case None => None
      case Some(tag) =>
        LabelSplit(b, |LabelWord|, g);
        Some(Tag(Label(b[..|LabelWord|], c[..g]), tag.token, tag.rest))
    else None
  }

  lemma LabelSplit(b: string, k: nat, g: nat)
    requires k + g <= |b|
    ensures b == b[..k] + (b[k..][..g] + b[k..][g..])
  {
    assert b[k..] == b[k..][..g] + b[k..][g..];
  }

  /** Matches `(?:PRIORITY:\s*)?(HIGH|MEDIUM|MED|LOW)\]` at the front of `b`,
      first with the label and, should that fail, without it. */
  function MatchTag(b: string): (r: Option<Tag>)
    ensures r.Some? ==> b == LabelText(r.value.prefix) + (r.value.token + ("]" + r.value.rest))
    ensures r.Some? ==> IsToken(r.value.token)
    ensures r.Some? && r.value.prefix.Label? ==>
              EqualsIgnoreCase(r.value.prefix.keyword, LabelWord) && AllSpaces(r.value.prefix.gap)
  {
    var labelled := LabelledTag(b);
    if labelled.Some? then labelled else PlainTag(b)
  }

  /** Where the lazy `(.+?)` stops in `body`, searching from `k`: the first
      arrow with a character after it, or the end of the body. */
  function SplitPoint(body: string, k: nat): (r: nat)
    requires k <= |body|
    ensures k <= r <= |body|
    ensures r < |body| ==> body[r] == Arrow && r + 1 < |body|
    ensures forall j :: k <= j < r ==> !(body[j] == Arrow && j + 1 < |body|)
    decreases |body| - k
  {
    if k == |body| then k
    else if body[k] == Arrow && k + 1 < |body| then k
    else SplitPoint(body, k + 1)
  }

  /** The header expression applied to `t`; `None` when it does not match.
      The source applies it to trimmed lines only, and on those the greedy
      runs never need to give characters back, so every choice below is
      the one the expression makes. This first step reads `\d+\.`. */
  function MatchHeader(t: string): (r: Option<HeaderParts>)
    ensures r.Some? ==> WellFormed(r.value) && Render(r.value) == t
  {
    var n := LeadingDigits(t);
    if n == 0 || n == |t| || t[n] != '.' then None
    else
      assert t == t[..n] + ("." + t[n + 1..]);
      MatchBracket(t[..n], t[n + 1..])
  }

  /** After the ordinal and the dot: `\s*\[`, then the tag. */
  function MatchBracket(ordinal: string, a: string): (r: Option<HeaderParts>)
    requires |ordinal| > 0 && AllDigits(ordinal)
    ensures r.Some? ==> WellFormed(r.value) && Render(r.value) == ordinal + ("." + a)
  {
    var g := LeadingSpaces(a);
    if g == |a| || a[g] != '[' then None
    else
      match MatchTag(a[g + 1..])
      case None => None
      case Some(tag) =>
        BracketSound(a, g, tag);
        MatchBody(ordinal, a[..g], tag)
  }

  /** The gap, the "[" and the tag make up the text after the dot. */
  lemma BracketSound(a: string, g: nat, tag: Tag)
    requires g < |a| && a[g] == '['
    requires a[g + 1..] == LabelText(tag.prefix) + (tag.token + ("]" + tag.rest))
    ensures a == a[..g] + ("[" + (LabelText(tag.prefix) + (tag.token + ("]" + tag.rest))))
  {
    assert a == a[..g] + ("[" + a[g + 1..]);
  }

  /** After the "]": `\s*`, then the issue, cut at the first arrow that has
      a character after it, and the fix. */
  function MatchBody(ordinal: string, gap: string, tag: Tag): (r: Option<HeaderParts>)
    requires |ordinal| > 0 && AllDigits(ordinal) && AllSpaces(gap) && IsToken(tag.token)
    requires tag.prefix.Label? ==> EqualsIgnoreCase(tag.prefix.keyword, LabelWord) && AllSpaces(tag.prefix.gap)
    ensures r.Some? ==> WellFormed(r.value)
    ensures r.Some? ==> Render(r.value)
                        == ordinal + ("." + (gap + ("[" + (LabelText(tag.prefix) + (tag.token + ("]" + tag.rest))))))
  {
    var c := tag.rest;
    var l := LeadingSpaces(c);
    var body := c[l..];
    if |body| == 0 || !NoLineTerminator(body) then None
    else
      var k := SplitPoint(body, 1);
      var fix := if k == |body| then None else Some(body[k + 1..]);
      BodySound(c, l, body, k);
      Some(HeaderParts(ordinal, gap, tag.prefix, tag.token, c[..l], body[..k], fix))
  }

  /** The lead, issue and fix `MatchBody` cuts out satisfy the conditions
      `WellFormed` puts on them and make up the text after the "]". */
  lemma BodySound(c: string, l: nat, body: string, k: nat)
    requires l <= |c| && AllSpaces(c[..l]) && (l == |c| || !IsSpace(c[l]))
    requires body == c[l..] && |body| > 0 && NoLineTerminator(body)
    requires 1 <= k <= |body| && (k < |body| ==> body[k] == Arrow && k + 1 < |body|)
    requires forall j :: 1 <= j < k ==> !(body[j] == Arrow && j + 1 < |body|)
    ensures var fix := if k == |body| then None else Some(body[k + 1..]);
            && |body[..k]| > 0 && !IsSpace(body[..k][0]) && NoLineTerminator(body[..k])
            && (match fix
                case Some(y) => |y| > 0 && NoLineTerminator(y) && Arrow !in body[..k][1..]
                case None => forall j :: 1 <= j < |body[..k]| - 1 ==> body[..k][j] != Arrow)
            && c == c[..l] + (body[..k] + FixText(fix))
  {
    IssueSound(body, k);
    assert body[..k][0] == c[l];
    BodyConcat(c, l, body, k);
  }

  /** Cutting the text after the "]" into lead, issue, arrow and fix loses
      nothing. */
  lemma BodyConcat(c: string, l: nat, body: string, k: nat)
    requires l <= |c| && body == c[l..]
    requires k <= |body| && (k < |body| ==> body[k] == Arrow)
    ensures c == c[..l] + (body[..k] + FixText(if k == |body| then None else Some(body[k + 1..])))
  {
    if k == |body| {
      assert body[..k] + FixText(None) == body;
    } else {
      assert body[..k] + FixText(Some(body[k + 1..])) == body;
    }
    assert c[..l] + c[l..] == c;
  }

  /** The issue and fix cut from `body` at `SplitPoint` satisfy the
      conditions `WellFormed` puts on them. */
  lemma IssueSound(body: string, k: nat)
    requires |body| > 0 && NoLineTerminator(body)
    requires 1 <= k <= |body| && (k < |body| ==> body[k] == Arrow && k + 1 < |body|)
    requires forall j :: 1 <= j < k ==> !(body[j] == Arrow && j + 1 < |body|)
    ensures NoLineTerminator(body[..k])
    ensures k == |body| ==> forall j :: 1 <= j < |body| - 1 ==> body[j] != Arrow
    ensures k < |body| ==> |body[k + 1..]| > 0 && NoLineTerminator(body[k + 1..]) && Arrow !in body[..k][1..]
  {
    if k < |body| {
      assert forall j :: 0 <= j < |body[..k][1..]| ==> body[..k][1..][j] == body[j + 1];
    }
  }

  /** A priority token begins with a letter. */
  lemma TokenStart(s: string)
    requires IsToken(s)
    ensures |s| > 0 && !IsSpace(s[0]) && s[0] != ']'
  {
    assert Upper(s)[0] == UpperChar(s[0]);
  }

  /** `TokenAt` finds a priority token that is followed by "]". */
  lemma TokenAtComplete(token: string, rest: string)
    requires IsToken(token)
    ensures TokenAt(token + ("]" + rest)) == Some(|token|)
  {
    var b := token + ("]" + rest);
    assert b[..|token|] == token;
    assert b[|token|] == ']';
    var u := Upper(token);
    forall i | 0 <= i < |Tokens| && |Tokens[i]| != |token|
      ensures !WordThenBracket(b, Tokens[i])
    {
      var w := Tokens[i];
      if |w| < |token| {
        assert Upper(b[..|w|]) == u[..|w|];
      } else if |b| > |w| {
        assert Upper(b[..|w|])[|token|] == ']';
      }
    }
  }

  /** The label-free reading finds a token followed by "]". */
  lemma PlainTagComplete(token: string, rest: string)
    requires IsToken(token)
    ensures PlainTag(token + ("]" + rest)) == Some(Tag(NoLabel, token, rest))
  {
    var d := token + ("]" + rest);
    TokenAtComplete(token, rest);
    assert d[..|token|] == token && d[|token| + 1..] == rest;
  }

  /** Text that begins with a token cannot be read as labelled: the "]"
      after the token comes before the label would end. */
  lemma UnlabelledComplete(token: string, rest: string)
    requires IsToken(token)
    ensures LabelledTag(token + ("]" + rest)) == None
  {
    var d := token + ("]" + rest);
    TokenLength(token);
    if |d| >= |LabelWord| {
      var w := d[..|LabelWord|];
      assert w[|token|] == ']';
      assert Upper(w)[|token|] == ']';
      assert LabelWord[|token|] != ']';
    }
  }

  /** Priority tokens have three to six characters. */
  lemma TokenLength(s: string)
    requires IsToken(s)
    ensures 3 <= |s| <= 6
  {
    assert |Upper(s)| == |s|;
  }

  /** A label, white space and a token followed by "]" read as labelled. */
  lemma LabelledComplete(kw: string, sp: string, token: string, rest: string)
    requires IsToken(token) && EqualsIgnoreCase(kw, LabelWord) && AllSpaces(sp)
    ensures LabelledTag(kw + (sp + (token + ("]" + rest)))) == Some(Tag(Label(kw, sp), token, rest))
  {
    var d := token + ("]" + rest);
    var b := kw + (sp + d);
    PlainTagComplete(token, rest);
    TokenStart(token);
    assert b[..|LabelWord|] == kw;
    assert b[|LabelWord|..] == sp + d;
    LeadingSpacesAppend(sp, d);
    assert (sp + d)[|sp|..] == d;
    assert (sp + d)[..|sp|] == sp;
  }

  /** Reading back the tag of a well-formed header. */
  lemma MatchTagComplete(prefix: Label, token: string, rest: string)
    requires IsToken(token)
    requires prefix.Label? ==> EqualsIgnoreCase(prefix.keyword, LabelWord) && AllSpaces(prefix.gap)
    ensures MatchTag(LabelText(prefix) + (token + ("]" + rest))) == Some(Tag(prefix, token, rest))
  {
    match prefix
    case NoLabel =>
      assert LabelText(prefix) + (token + ("]" + rest)) == token + ("]" + rest);
      PlainTagComplete(token, rest);
      UnlabelledComplete(token, rest);
    case Label(kw, sp) =>
      assert LabelText(prefix) + (token + ("]" + rest)) == kw + (sp + (token + ("]" + rest)));
      LabelledComplete(kw, sp, token, rest);
  }

  /** Reading back what follows the "]" of a well-formed header: the white
      space, then the issue, cut at the arrow that starts the fix. */
  lemma TailComplete(p: HeaderParts)
    requires WellFormed(p)
    ensures var c := p.lead + (p.issue + FixText(p.fix));
            var l := LeadingSpaces(c);
            var body := c[l..];
            && l == |p.lead| && |body| > 0 && NoLineTerminator(body)
            && SplitPoint(body, 1) == |p.issue| && body[..|p.issue|] == p.issue
            && (if |p.issue| == |body| then None else Some(body[|p.issue| + 1..])) == p.fix
  {
    var body := p.issue + FixText(p.fix);
    var c := p.lead + body;
    assert body[0] == p.issue[0];
    LeadingSpacesAppend(p.lead, body);
    assert c[|p.lead|..] == body;
    var k := SplitPoint(body, 1);
    match p.fix
    case None =>
      assert body == p.issue;
    case Some(y) =>
      assert body == p.issue + ([Arrow] + y);
      assert body[|p.issue|] == Arrow;
      assert forall j :: 1 <= j < |p.issue| ==> body[j] == p.issue[1..][j - 1];
      assert k == |p.issue|;
      assert body[..k] == p.issue;
      assert body[k + 1..] == y;
  }

  /** The line a well-formed set of pieces renders to is matched, and
      matching it gives back exactly those pieces: `MatchHeader` is the
      inverse of `Render`. */
  lemma MatchRender(p: HeaderParts)
    requires WellFormed(p)
    ensures MatchHeader(Render(p)) == Some(p)
  {
    var c := p.lead + (p.issue + FixText(p.fix));
    var b := LabelText(p.prefix) + (p.token + ("]" + c));
    var a := p.gap + ("[" + b);
    RenderFront(p);
    OrdinalStep(Render(p), p.ordinal, a);
    MatchTagComplete(p.prefix, p.token, c);
    BracketStep(p.ordinal, a, p.gap, Tag(p.prefix, p.token, c));
    BodyStep(p);
  }

  /** Reading `\d+\.` off a line whose ordinal is known. */
  lemma OrdinalStep(t: string, ordinal: string, a: string)
    requires LeadingDigits(t) == |ordinal| && 0 < |ordinal| < |t| && t[|ordinal|] == '.'
    requires t[..|ordinal|] == ordinal && t[|ordinal| + 1..] == a
    ensures MatchHeader(t) == MatchBracket(ordinal, a)
  {
  }

  /** Reading `\s*\[` and the tag off a text whose gap and tag are known. */
  lemma BracketStep(ordinal: string, a: string, gap: string, tag: Tag)
    requires |ordinal| > 0 && AllDigits(ordinal)
    requires LeadingSpaces(a) == |gap| && |gap| < |a| && a[|gap|] == '['
    requires a[..|gap|] == gap && MatchTag(a[|gap| + 1..]) == Some(tag)
    ensures MatchBracket(ordinal, a) == MatchBody(ordinal, gap, tag)
  {
    BracketUnfold(ordinal, a);
  }

  /** `MatchBracket` on a text with "[" after its white space and a tag
      after that. */
  lemma BracketUnfold(ordinal: string, a: string)
    requires |ordinal| > 0 && AllDigits(ordinal)
    requires LeadingSpaces(a) < |a| && a[LeadingSpaces(a)] == '[' && MatchTag(a[LeadingSpaces(a) + 1..]).Some?
    ensures MatchBracket(ordinal, a)
            == MatchBody(ordinal, a[..LeadingSpaces(a)], MatchTag(a[LeadingSpaces(a) + 1..]).value)
  {
  }

  /** Reading the lead, issue and fix off the text after the "]" of a
      well-formed header gives back its pieces. */
  lemma BodyStep(p: HeaderParts)
    requires WellFormed(p)
    ensures MatchBody(p.ordinal, p.gap, Tag(p.prefix, p.token, p.lead + (p.issue + FixText(p.fix)))) == Some(p)
  {
    TailComplete(p);
  }

  /** Reading the ordinal, the dot, the white space and the "[" off a
      rendered header. */
  lemma RenderFront(p: HeaderParts)
    requires WellFormed(p)
    ensures var t := Render(p);
            var b := LabelText(p.prefix) + (p.token + ("]" + (p.lead + (p.issue + FixText(p.fix)))));
            var a := p.gap + ("[" + b);
            && LeadingDigits(t) == |p.ordinal| && |p.ordinal| < |t| && t[|p.ordinal|] == '.'
            && t[..|p.ordinal|] == p.ordinal && t[|p.ordinal| + 1..] == a
            && LeadingSpaces(a) == |p.gap| && |p.gap| < |a| && a[|p.gap|] == '['
            && a[..|p.gap|] == p.gap && a[|p.gap| + 1..] == b
  {
    var t := Render(p);
    var b := LabelText(p.prefix) + (p.token + ("]" + (p.lead + (p.issue + FixText(p.fix)))));
    var a := p.gap + ("[" + b);
    assert t == p.ordinal + ("." + a);
    LeadingDigitsAppend(p.ordinal, "." + a);
    assert t[|p.ordinal|] == '.';
    assert t[..|p.ordinal|] == p.ordinal;
    assert t[|p.ordinal| + 1..] == a;
    LeadingSpacesAppend(p.gap, "[" + b);
    assert a[|p.gap|] == '[';
    assert a[..|p.gap|] == p.gap;
    assert a[|p.gap| + 1..] == b;
  }
}

=== FILE: html_analyzer.dfy ===
/** `HTMLAnalyzer`'s extractors (src/html-analyzer.js:29-128) over the
    results of the document queries.

    The fetch and the selector engine are not modelled: each extractor takes
    what its query returns, in document order, as a sequence (the text of
    `<title>`, the `content` of a meta tag or `None` when it is absent, the
    heading elements with their level, the `img` and `a[href]` attributes,
    the outcome of `JSON.parse` on each JSON-LD block, the prefixed meta
    tags). */
module HtmlAnalyzer {

  import opened Base
  import opened Text

  /** `value || null` on an attribute that may be absent: absent and empty
      both become `null`. */
  function OrNull(v: Option<string>): (r: Option<string>)
    ensures Defaulted(r, v)
  {
    if v.Some? && v.value != "" then v else None
  }

  /** `r` is `v || null`: `null` exactly when `v` is absent or empty, and
      `v` itself otherwise. */
  predicate Defaulted(r: Option<string>, v: Option<string>)
  {
    && (r.None? <==> v.None? || v.value == "")
    && (r.Some? ==> r == v)
  }

  /** `(value || '').length`, in UTF-16 code units. */
  function LengthOf(v: Option<string>): nat
  {
    if v.Some? then Utf16Length(v.value) else 0
  }

  // ---------------------------------------------------------------- meta

  /** What the meta queries return: the text of `<title>` (empty when there
      is none) and the attributes of the other tags. */
  datatype MetaSource = MetaSource(
    titleText: string,
    description: Option<string>,
    keywords: Option<string>,
    robots: Option<string>,
    canonical: Option<string>,
    author: Option<string>,
    viewport: Option<string>)

  datatype Meta = Meta(
    title: Option<string>,
    titleLength: nat,
    description: Option<string>,
    descriptionLength: nat,
    keywords: Option<string>,
    robots: Option<string>,
    canonical: Option<string>,
    author: Option<string>,
    viewport: Option<string>)

  /** `extractMeta`: a field is `null` exactly when its source is absent or
      empty, and the two lengths are the UTF-16 lengths of the title and
      description (0 when they are `null`). */
  function ExtractMeta(src: MetaSource): (m: Meta)
    ensures Defaulted(m.title, Some(src.titleText)) && Defaulted(m.description, src.description)
    ensures Defaulted(m.keywords, src.keywords) && Defaulted(m.robots, src.robots)
    ensures Defaulted(m.canonical, src.canonical) && Defaulted(m.author, src.author)
    ensures Defaulted(m.viewport, src.viewport)
    ensures m.title.None? <==> m.titleLength == 0
    ensures m.title.Some? ==> m.titleLength == Utf16Length(src.titleText)
    ensures m.description.None? <==> m.descriptionLength == 0
    ensures m.description.Some? ==> m.descriptionLength == Utf16Length(m.description.value)
  {
    Meta(
      OrNull(Some(src.titleText)), LengthOf(OrNull(Some(src.titleText))),
      OrNull(src.description), LengthOf(OrNull(src.description)),
      OrNull(src.keywords), OrNull(src.robots), OrNull(src.canonical),
      OrNull(src.author), OrNull(src.viewport))
  }

  // ------------------------------------------------------------ headings

  /** A heading element `h1`..`h6` and its text content. */
  datatype HeadingElement = HeadingElement(level: nat, text: string)

  /** The stored texts of one heading level: each element of that level,
      trimmed, dropping those that trim to nothing, in document order. */
  function LevelTexts(doc: seq<HeadingElement>, level: nat): (r: seq<string>)
    ensures |r| <= |doc|
    ensures AllStored(r)
    decreases |doc|
  {
    if |doc| == 0 then []
    else
      var rest := LevelTexts(doc[1..], level);
      var t := Trim(doc[0].text);
      if doc[0].level == level && t != "" then
        StoredCons(t, rest);
        [t] + rest
      else rest
  }

  /** Texts as they are stored: not empty and trimmed. */
  predicate AllStored(r: seq<string>)
  {
    forall i :: 0 <= i < |r| ==> r[i] != "" && IsTrimmed(r[i])
  }

  lemma StoredCons(t: string, rest: seq<string>)
    requires t != "" && IsTrimmed(t) && AllStored(rest)
    ensures AllStored([t] + rest)
  {
    assert forall i :: 1 <= i < |[t] + rest| ==> ([t] + rest)[i] == rest[i - 1];
  }

  /** The element at position `i` contributes its trimmed text. */
  predicate Contributes(doc: seq<HeadingElement>, level: nat, i: int, x: string)
  {
    0 <= i < |doc| && doc[i].level == level && Trim(doc[i].text) == x && x != ""
  }

  /** `extractHeadings`: the six lists `h1`..`h6`, at positions 0..5. */
  function ExtractHeadings(doc: seq<HeadingElement>): (h: seq<seq<string>>)
    ensures |h| == 6
    ensures forall k :: 0 <= k < 6 ==> AllStored(h[k])
    ensures forall k :: 0 <= k < 6 ==> h[k] == LevelTexts(doc, k + 1)
  {
    seq(6, k requires 0 <= k < 6 => LevelTexts(doc, k + 1))
  }

  /** A text is stored under a level exactly when some element of that
      level trims to it and it is not empty. */
  lemma {:induction false} LevelTextsMember(doc: seq<HeadingElement>, level: nat, x: string)
    ensures x in LevelTexts(doc, level) <==> exists i :: Contributes(doc, level, i, x)
    decreases |doc|
  {
    if |doc| > 0 {
      LevelTextsMember(doc[1..], level, x);
      LevelTextsUnfold(doc, level);
      ContributesShift(doc, level, x);
    }
  }

  /** The texts of a non-empty document: that of its first element, when
      it is stored, then those of the rest. */
  lemma LevelTextsUnfold(doc: seq<HeadingElement>, level: nat)
    requires |doc| > 0
    ensures LevelTexts(doc, level)
            == (if Contributes(doc, level, 0, Trim(doc[0].text)) then [Trim(doc[0].text)] else [])
               + LevelTexts(doc[1..], level)
  {
  }

  /** An element contributing to a document is its first element or an
      element of the rest. */
  lemma ContributesShift(doc: seq<HeadingElement>, level: nat, x: string)
    requires |doc| > 0
    ensures (exists i :: Contributes(doc, level, i, x))
            <==> Contributes(doc, level, 0, x) || exists i :: Contributes(doc[1..], level, i, x)
  {
    if exists i :: Contributes(doc[1..], level, i, x) {
      var i :| Contributes(doc[1..], level, i, x);
      assert Contributes(doc, level, i + 1, x);
    }
    if exists i :: Contributes(doc, level, i, x) {
      var i :| Contributes(doc, level, i, x);
      if i > 0 {
        assert Contributes(doc[1..], level, i - 1, x);
      }
    }
  }

  /** Headings keep document order: the texts of a document made of two
      parts are those of the first part followed by those of the second. */
  lemma {:induction false} LevelTextsAppend(a: seq<HeadingElement>, b: seq<HeadingElement>, level: nat)
    ensures LevelTexts(a + b, level) == LevelTexts(a, level) + LevelTexts(b, level)
    decreases |a|
  {
    if |a| == 0 {
      assert a + b == b;
    } else {
      assert (a + b)[1..] == a[1..] + b;
      LevelTextsAppend(a[1..], b, level);
    }
  }

  // -------------------------------------------------------------- images

  datatype ImageElement = ImageElement(src: Option<string>, alt: Option<string>)

  /** The sample entry of an image: its `src`, and its alt or `null`. */
  datatype ImageEntry = ImageEntry(src: Option<string>, alt: Option<string>)

  datatype ImageReport = ImageReport(total: nat, missingAlt: nat, images: seq<ImageEntry>)

  const SampleSize: nat := 10

  /** An alt that is absent, empty or only white space. */
  predicate MissingAlt(e: ImageElement)
  {
    e.alt.None? || Trim(e.alt.value) == ""
  }

  function EntryOf(e: ImageElement): ImageEntry
  {
    ImageEntry(e.src, OrNull(e.alt))
  }

  /** `analyzeImages`: every image is counted, those without a usable alt
      are counted again, and the first ten entries are kept in order. */
  method AnalyzeImages(imgs: seq<ImageElement>) returns (r: ImageReport)
    ensures r.total == |imgs|
    ensures r.missingAlt == Count(imgs, MissingAlt) && r.missingAlt <= r.total
    ensures |r.images| == Min(SampleSize, |imgs|)
    ensures forall i :: 0 <= i < |r.images| ==> r.images[i] == EntryOf(imgs[i])
  {
    var images: seq<ImageEntry> := [];
    var missingAlt := 0;
    var i := 0;
    while i < |imgs|
      invariant 0 <= i <= |imgs|
      invariant |images| == i
      invariant forall j :: 0 <= j < i ==> images[j] == EntryOf(imgs[j])
      invariant missingAlt == Count(imgs[..i], MissingAlt)
    {
      var e := imgs[i];
      CountAppend(imgs[..i], [e], MissingAlt);
      assert imgs[..i + 1] == imgs[..i] + [e];
      if MissingAlt(e) {
        missingAlt := missingAlt + 1;
      }
      images := images + [EntryOf(e)];
      i := i + 1;
    }
    assert imgs[..i] == imgs;
    CountSplit(imgs, MissingAlt);
    r := ImageReport(|images|, missingAlt, images[..Min(SampleSize, |images|)]);
  }

  // --------------------------------------------------------------- links

  const ExternalSampleSize: nat := 5

  datatype LinkClass = External | Internal | Uncounted

  /** An `href` is external when it starts with `http` and does not contain
      the page's host name; otherwise internal when it starts with `/` or
      with the page URL; otherwise it is not counted. */
  function ClassifyLink(href: string, baseUrl: string, hostname: string): LinkClass
  {
    if StartsWith(href, "http") && !Includes(href, hostname) then External
    else if StartsWith(href, "/") || StartsWith(href, baseUrl) then Internal
    else Uncounted
  }

  /** The external `href`s, in document order. */
  function Externals(hrefs: seq<string>, baseUrl: string, hostname: string): (r: seq<string>)
    ensures |r| <= |hrefs|
    decreases |hrefs|
  {
    if |hrefs| == 0 then []
    else if ClassifyLink(hrefs[0], baseUrl, hostname) == External then [hrefs[0]] + Externals(hrefs[1..], baseUrl, hostname)
    else Externals(hrefs[1..], baseUrl, hostname)
  }

  /** The number of internal `href`s. */
  function Internals(hrefs: seq<string>, baseUrl: string, hostname: string): nat
    decreases |hrefs|
  {
    if |hrefs| == 0 then 0
    else (if ClassifyLink(hrefs[0], baseUrl, hostname) == Internal then 1 else 0)
         + Internals(hrefs[1..], baseUrl, hostname)
  }

  /** Every `href` is counted at most once. */
  lemma {:induction false} LinksBound(hrefs: seq<string>, baseUrl: string, hostname: string)
    ensures Internals(hrefs, baseUrl, hostname) + |Externals(hrefs, baseUrl, hostname)| <= |hrefs|
    decreases |hrefs|
  {
    if |hrefs| > 0 {
      LinksBound(hrefs[1..], baseUrl, hostname);
    }
  }

  /** An `href` is listed as external exactly when it is one of the page's
      `href`s and is classified external. */
  lemma {:induction false} ExternalsMember(hrefs: seq<string>, baseUrl: string, hostname: string, x: string)
    ensures x in Externals(hrefs, baseUrl, hostname) <==> x in hrefs && ClassifyLink(x, baseUrl, hostname) == External
    decreases |hrefs|
  {
    if |hrefs| > 0 {
      ExternalsMember(hrefs[1..], baseUrl, hostname, x);
      assert hrefs == [hrefs[0]] + hrefs[1..];
    }
  }

  datatype LinkReport = LinkReport(internal: nat, external: nat, externalLinks: seq<string>)

  /** `analyzeLinks`: the two counters, and the first five external
      `href`s while the external counter itself is not capped. */
  method AnalyzeLinks(hrefs: seq<string>, baseUrl: string, hostname: string) returns (r: LinkReport)
    ensures r.external == |Externals(hrefs, baseUrl, hostname)|
    ensures r.internal == Internals(hrefs, baseUrl, hostname)
    ensures r.internal + r.external <= |hrefs|
    ensures r.externalLinks == Externals(hrefs, baseUrl, hostname)[..Min(ExternalSampleSize, r.external)]
  {
    var internal := 0;
    var external := 0;
    var externalLinks: seq<string> := [];
    var i := 0;
    while i < |hrefs|
      invariant 0 <= i <= |hrefs|
      invariant internal == Internals(hrefs[..i], baseUrl, hostname)
      invariant external == |Externals(hrefs[..i], baseUrl, hostname)|
      invariant externalLinks == Externals(hrefs[..i], baseUrl, hostname)[..Min(ExternalSampleSize, external)]
    {
      var href := hrefs[i];
      LinkStep(hrefs, i, baseUrl, hostname);
      if StartsWith(href, "http") && !Includes(href, hostname) {
        external := external + 1;
        if |externalLinks| < ExternalSampleSize {
          externalLinks := externalLinks + [href];
        }
      } else if StartsWith(href, "/") || StartsWith(href, baseUrl) {
        internal := internal + 1;
      }
      i := i + 1;
    }
    assert hrefs[..i] == hrefs;
    LinksBound(hrefs, baseUrl, hostname);
    r := LinkReport(internal, external, externalLinks);
  }

  /** One more `href` adds itself to the external list or one to the
      internal count, according to its class. */
  lemma LinkStep(hrefs: seq<string>, i: nat, baseUrl: string, hostname: string)
    requires i < |hrefs|
    ensures var c := ClassifyLink(hrefs[i], baseUrl, hostname);
            && Externals(hrefs[..i + 1], baseUrl, hostname)
               == Externals(hrefs[..i], baseUrl, hostname) + (if c == External then [hrefs[i]] else [])
            && Internals(hrefs[..i + 1], baseUrl, hostname)
               == Internals(hrefs[..i], baseUrl, hostname) + (if c == Internal then 1 else 0)
  {
    assert hrefs[..i + 1] == hrefs[..i] + [hrefs[i]];
    ExternalsAppend(hrefs[..i], [hrefs[i]], baseUrl, hostname);
    InternalsAppend(hrefs[..i], [hrefs[i]], baseUrl, hostname);
  }

  /** The internal count of two parts of a page is the sum of theirs. */
  lemma {:induction false} InternalsAppend(a: seq<string>, b: seq<string>, baseUrl: string, hostname: string)
    ensures Internals(a + b, baseUrl, hostname) == Internals(a, baseUrl, hostname) + Internals(b, baseUrl, hostname)
    decreases |a|
  {
    if |a| == 0 {
      assert a + b == b;
    } else {
      assert (a + b)[1..] == a[1..] + b;
      InternalsAppend(a[1..], b, baseUrl, hostname);
    }
  }

  /** The external `href`s of two parts of a page, in order. */
  lemma {:induction false} ExternalsAppend(a: seq<string>, b: seq<string>, baseUrl: string, hostname: string)
    ensures Externals(a + b, baseUrl, hostname) == Externals(a, baseUrl, hostname) + Externals(b, baseUrl, hostname)
    decreases |a|
  {
    if |a| == 0 {
      assert a + b == b;
    } else {
      assert (a + b)[1..] == a[1..] + b;
      ExternalsAppend(a[1..], b, baseUrl, hostname);
    }
  }

  // -------------------------------------------------------------- schema

  /** `extractSchema`: the values of the JSON-LD blocks that parse, in
      document order; blocks that fail to parse are dropped. */
  function ExtractSchema<J>(blocks: seq<Result<J, string>>): (r: seq<J>)
    ensures |r| <= |blocks|
    decreases |blocks|
  {
    if |blocks| == 0 then []
    else if blocks[0].Ok? then [blocks[0].value] + ExtractSchema(blocks[1..])
    else ExtractSchema(blocks[1..])
  }

  /** A value is kept exactly when some block parses to it. */
  lemma {:induction false} SchemaMember<J>(blocks: seq<Result<J, string>>, x: J)
    ensures x in ExtractSchema(blocks) <==> Ok(x) in blocks
    decreases |blocks|
  {
    if |blocks| > 0 {
      SchemaMember(blocks[1..], x);
      assert blocks == [blocks[0]] + blocks[1..];
    }
  }

  /** Surviving blocks keep document order. */
  lemma {:induction false} SchemaAppend<J>(a: seq<Result<J, string>>, b: seq<Result<J, string>>)
    ensures ExtractSchema(a + b) == ExtractSchema(a) + ExtractSchema(b)
    decreases |a|
  {
    if |a| == 0 {
      assert a + b == b;
    } else {
      assert (a + b)[1..] == a[1..] + b;
      SchemaAppend(a[1..], b);
    }
  }

  // ---------------------------------------------------- open graph, twitter

  const OpenGraphPrefix: string := "og:"
  const TwitterPrefix: string := "twitter:"

  /** A meta tag the prefix query returns: the prefixed attribute (`property`
      or `name`) and its `content`, `None` when absent. */
  datatype MetaTag = MetaTag(attr: string, content: Option<string>)

  /** The key a tag is stored under: its attribute with the first
      occurrence of the prefix removed. */
  function KeyOf(t: MetaTag, prefix: string): string
  {
    ReplaceFirst(t.attr, prefix, "")
  }

  /** The object built by assigning each tag's content to its key, in
      document order. */
  function Collect(tags: seq<MetaTag>, prefix: string): (m: map<string, Option<string>>)
    ensures forall k :: k in m <==> exists i :: 0 <= i < |tags| && KeyOf(tags[i], prefix) == k
    decreases |tags|
  {
    if |tags| == 0 then map[]
    else
      var last := tags[|tags| - 1];
      var m := Collect(tags[..|tags| - 1], prefix);
      assert forall i :: 0 <= i < |tags| - 1 ==> tags[..|tags| - 1][i] == tags[i];
      m[KeyOf(last, prefix) := last.content]
  }

  /** `extractOpenGraph`. */
  function ExtractOpenGraph(tags: seq<MetaTag>): map<string, Option<string>>
  {
    Collect(tags, OpenGraphPrefix)
  }

  /** `extractTwitter`. */
  function ExtractTwitter(tags: seq<MetaTag>): map<string, Option<string>>
  {
    Collect(tags, TwitterPrefix)
  }

  /** A tag whose attribute carries the prefix is stored under the rest of
      the attribute. */
  lemma KeyStripsPrefix(prefix: string, rest: string, content: Option<string>)
    ensures KeyOf(MetaTag(prefix + rest, content), prefix) == rest
  {
    ReplacePrefix(prefix, rest);
  }

  /** The last tag with a given key wins. */
  lemma {:induction false} LastWins(tags: seq<MetaTag>, prefix: string, i: nat)
    requires i < |tags|
    requires forall j :: i < j < |tags| ==> KeyOf(tags[j], prefix) != KeyOf(tags[i], prefix)
    ensures KeyOf(tags[i], prefix) in Collect(tags, prefix)
    ensures Collect(tags, prefix)[KeyOf(tags[i], prefix)] == tags[i].content
    decreases |tags|
  {
    var n := |tags| - 1;
    if i < n {
      var init := tags[..n];
      assert init[i] == tags[i];
      forall j | i < j < |init|
        ensures KeyOf(init[j], prefix) != KeyOf(init[i], prefix)
      {
        assert init[j] == tags[j];
      }
      LastWins(init, prefix, i);
    }
  }
}

=== FILE: lighthouse_runner.dfy ===
/** The actionable items `LighthouseRunner.run` extracts from a Lighthouse
    result (src/lighthouse-runner.js:35-65, 83-89).

    The browser, the Lighthouse flow and the result object itself are not
    modelled: the audits arrive as the ordered `(id, audit)` entries of
    `Object.entries(lhr.audits)`, and as a map from id to audit for the
    direct lookups. Scores are reals, `None` standing for `null`. */
module LighthouseRunner {

  import opened Base

  datatype Details = Details(kind: string, overallSavingsMs: Option<real>)

  datatype Audit = Audit(title: string, description: string, score: Option<real>, details: Option<Details>)

  datatype Entry = Entry(id: string, audit: Audit)

  datatype FailedAudit = FailedAudit(id: string, title: string, description: string, score: real)

  datatype Opportunity = Opportunity(id: string, title: string, description: string, savings: real)

  datatype Diagnostic = Diagnostic(id: string, title: string, description: string)

  const FailedCap: nat := 15
  const OpportunityCap: nat := 10
  const DiagnosticCap: nat := 10

  /** A scored audit that did not fully pass. */
  predicate IsFailed(e: Entry)
  {
    e.audit.score.Some? && e.audit.score.value < 1.0
  }

  predicate IsOpportunity(e: Entry)
  {
    e.audit.details.Some? && e.audit.details.value.kind == "opportunity"
  }

  /** A table audit that did not fully pass. */
  predicate IsDiagnostic(e: Entry)
  {
    e.audit.details.Some? && e.audit.details.value.kind == "table" && IsFailed(e)
  }

  function ToFailed(e: Entry): FailedAudit
  {
    FailedAudit(e.id, e.audit.title, e.audit.description, if e.audit.score.Some? then e.audit.score.value else 0.0)
  }

  /** `details.overallSavingsMs || 0`. */
  function Savings(d: Details): (r: real)
    ensures r == (if d.overallSavingsMs.Some? then d.overallSavingsMs.value else 0.0)
  {
    if d.overallSavingsMs.Some? && d.overallSavingsMs.value != 0.0 then d.overallSavingsMs.value else 0.0
  }

  function ToOpportunity(e: Entry): Opportunity
  {
    Opportunity(e.id, e.audit.title, e.audit.description,
                if e.audit.details.Some? then Savings(e.audit.details.value) else 0.0)
  }

  function ToDiagnostic(e: Entry): Diagnostic
  {
    Diagnostic(e.id, e.audit.title, e.audit.description)
  }

  /** `failedAudits`: the first fifteen failed audits, in entry order, each
      with its score. */
  function FailedAudits(entries: seq<Entry>): (r: seq<FailedAudit>)
    ensures |r| == Min(FailedCap, Count(entries, IsFailed))
    ensures forall x :: x in r ==> exists e :: e in entries && IsFailed(e) && x == ToFailed(e) && x.score < 1.0
  {
    SelectCount(entries, IsFailed, ToFailed);
    SelectMember(entries, IsFailed, ToFailed);
    var r := Take(Select(entries, IsFailed, ToFailed), FailedCap);
    assert forall x :: x in r ==> x in Select(entries, IsFailed, ToFailed);
    r
  }

  /** `opportunities`: the first ten opportunity audits in entry order,
      whatever their score. The source first picks one of two empty lists
      according to whether a `diagnostics` audit exists; either way the
      list it extends is empty. */
  function Opportunities(entries: seq<Entry>, hasDiagnostics: bool): (r: seq<Opportunity>)
    ensures |r| == Min(OpportunityCap, Count(entries, IsOpportunity))
    ensures forall x :: x in r ==> exists e :: e in entries && IsOpportunity(e) && x == ToOpportunity(e)
    ensures forall x :: x in r ==>
              exists e ::
                && e in entries && IsOpportunity(e) && x.id == e.id
                && x.savings == (if e.audit.details.value.overallSavingsMs.Some?
                                 then e.audit.details.value.overallSavingsMs.value else 0.0)
  {
    var head: seq<Opportunity> := if hasDiagnostics then [] else [];
    SelectCount(entries, IsOpportunity, ToOpportunity);
    SelectMember(entries, IsOpportunity, ToOpportunity);
    assert head + Select(entries, IsOpportunity, ToOpportunity) == Select(entries, IsOpportunity, ToOpportunity);
    var r := Take(head + Select(entries, IsOpportunity, ToOpportunity), OpportunityCap);
    assert forall x :: x in r ==> x in Select(entries, IsOpportunity, ToOpportunity);
    r
  }

  /** `diagnostics`: the first ten failed table audits, in entry order. */
  function Diagnostics(entries: seq<Entry>): (r: seq<Diagnostic>)
    ensures |r| == Min(DiagnosticCap, Count(entries, IsDiagnostic))
    ensures forall x :: x in r ==> exists e :: e in entries && IsDiagnostic(e) && x == ToDiagnostic(e)
  {
    SelectCount(entries, IsDiagnostic, ToDiagnostic);
    SelectMember(entries, IsDiagnostic, ToDiagnostic);
    var r := Take(Select(entries, IsDiagnostic, ToDiagnostic), DiagnosticCap);
    assert forall x :: x in r ==> x in Select(entries, IsDiagnostic, ToDiagnostic);
    r
  }

  /** With no entries nothing is reported; one more entry adds its failed
      audit exactly when it failed and fewer than fifteen came before it. */
  lemma FailedAuditsSnoc(a: seq<Entry>, e: Entry)
    ensures FailedAudits([]) == []
    ensures FailedAudits(a + [e])
            == FailedAudits(a) + (if IsFailed(e) && Count(a, IsFailed) < FailedCap then [ToFailed(e)] else [])
  {
    TakeSelectSnoc(a, e, IsFailed, ToFailed, FailedCap);
  }

  /** One more entry adds its opportunity exactly when it is an opportunity
      audit and fewer than ten came before it. */
  lemma OpportunitiesSnoc(a: seq<Entry>, e: Entry, hasDiagnostics: bool)
    ensures Opportunities([], hasDiagnostics) == []
    ensures Opportunities(a + [e], hasDiagnostics)
            == Opportunities(a, hasDiagnostics)
               + (if IsOpportunity(e) && Count(a, IsOpportunity) < OpportunityCap then [ToOpportunity(e)] else [])
  {
    TakeSelectSnoc(a, e, IsOpportunity, ToOpportunity, OpportunityCap);
  }

  /** One more entry adds its diagnostic exactly when it is a failed table
      audit and fewer than ten came before it. */
  lemma DiagnosticsSnoc(a: seq<Entry>, e: Entry)
    ensures Diagnostics([]) == []
    ensures Diagnostics(a + [e])
            == Diagnostics(a) + (if IsDiagnostic(e) && Count(a, IsDiagnostic) < DiagnosticCap then [ToDiagnostic(e)] else [])
  {
    TakeSelectSnoc(a, e, IsDiagnostic, ToDiagnostic, DiagnosticCap);
  }

  /** The presence of a `diagnostics` audit makes no difference. */
  lemma OpportunitiesIgnoreDiagnostics(entries: seq<Entry>)
    ensures Opportunities(entries, true) == Opportunities(entries, false)
  {
  }

  /** With at most fifteen failed audits, every one of them is reported. */
  lemma AllFailedReported(entries: seq<Entry>, e: Entry)
    requires Count(entries, IsFailed) <= FailedCap
    requires e in entries && IsFailed(e)
    ensures ToFailed(e) in FailedAudits(entries)
  {
    SelectCount(entries, IsFailed, ToFailed);
    SelectMember(entries, IsFailed, ToFailed);
  }

  /** The reported lists follow entry order: the items of a prefix of the
      entries come first. */
  lemma FailedAuditsPrefix(a: seq<Entry>, b: seq<Entry>)
    requires Count(a, IsFailed) <= FailedCap
    ensures |FailedAudits(a)| <= |FailedAudits(a + b)|
            && FailedAudits(a + b)[..|FailedAudits(a)|] == FailedAudits(a)
  {
    SelectAppend(a, b, IsFailed, ToFailed);
    SelectCount(a, IsFailed, ToFailed);
    CountAppend(a, b, IsFailed);
  }

  /** Every diagnostic would also count as a failed audit. */
  lemma DiagnosticsAreFailed(entries: seq<Entry>)
    ensures forall x :: x in Diagnostics(entries) ==> exists e :: e in entries && IsFailed(e) && x == ToDiagnostic(e)
  {
  }

  /** When audit ids are distinct, no audit is reported both as an
      opportunity and as a diagnostic. */
  lemma OpportunitiesDiagnosticsDisjoint(entries: seq<Entry>, hasDiagnostics: bool)
    requires forall i, j :: 0 <= i < j < |entries| ==> entries[i].id != entries[j].id
    ensures forall o, d :: o in Opportunities(entries, hasDiagnostics) && d in Diagnostics(entries) ==> o.id != d.id
  {
    forall o, d | o in Opportunities(entries, hasDiagnostics) && d in Diagnostics(entries)
      ensures o.id != d.id
    {
      var e1 :| e1 in entries && IsOpportunity(e1) && o == ToOpportunity(e1);
      var e2 :| e2 in entries && IsDiagnostic(e2) && d == ToDiagnostic(e2);
      assert e1 != e2;
      var i :| 0 <= i < |entries| && entries[i] == e1;
      var j :| 0 <= j < |entries| && entries[j] == e2;
      assert i != j;
    }
  }

  /** The seven boolean checks of the `audits` field. */
  datatype Flags = Flags(
    metaDescription: bool,
    httpStatusCode: bool,
    linkText: bool,
    crawlable: bool,
    robots: bool,
    hreflang: bool,
    canonical: bool)

  const FlagIds: seq<string> :=
    ["meta-description", "http-status-code", "link-text", "is-crawlable", "robots-txt", "hreflang", "canonical"]

  /** An audit scored exactly 1. */
  predicate Passes(audits: map<string, Audit>, id: string)
    requires id in audits
  {
    audits[id].score == Some(1.0)
  }

  /** The `audits` flags, or `None` when one of the seven audits is missing
      (reading its score throws in the source). */
  function AuditFlags(audits: map<string, Audit>): (r: Option<Flags>)
    ensures r.Some? <==> forall i :: 0 <= i < |FlagIds| ==> FlagIds[i] in audits
    ensures r.Some? ==> forall i :: 0 <= i < |FlagIds| ==> FlagValues(r.value)[i] == Passes(audits, FlagIds[i])
  {
    if forall i :: 0 <= i < |FlagIds| ==> FlagIds[i] in audits then
      Some(Flags(
        Passes(audits, FlagIds[0]),
        Passes(audits, FlagIds[1]),
        Passes(audits, FlagIds[2]),
        Passes(audits, FlagIds[3]),
        Passes(audits, FlagIds[4]),
        Passes(audits, FlagIds[5]),
        Passes(audits, FlagIds[6])))
    else None
  }

  /** The flags in the order of `FlagIds`. */
  function FlagValues(f: Flags): (r: seq<bool>)
    ensures |r| == |FlagIds|
  {
    [f.metaDescription, f.httpStatusCode, f.linkText, f.crawlable, f.robots, f.hreflang, f.canonical]
  }
}

=== FILE: recommendations.dfy ===
/** `AIAnalyzer.parseRecommendations` (src/ai-analyzer.js:142-176): raw
    generator text to an ordered list of prioritised recommendations.

    `Records` is the reference reading: every header line yields exactly
    one record, built from that line and a peek at the line after it.
    `ParseRecommendations` is the source's loop, which also skips the line
    it used as a fix; the two agree because such a line is never a
    header. */
module Recommendations {

  import opened Base
  import opened Text
  import opened Header

  datatype Priority = High | Medium | Low

  /** The priority string the source stores. */
  function Name(p: Priority): string
  {
    match p
    case High => "HIGH"
    case Medium => "MEDIUM"
    case Low => "LOW"
  }

  datatype Recommendation = Recommendation(priority: Priority, issue: string, fix: string)

  /** Neither the issue nor the fix of a record is empty. */
  predicate Actionable(r: Recommendation)
  {
    |r.issue| > 0 && |r.fix| > 0
  }

  /** Priority normalisation: the token in upper case, with `MED` read as
      `MEDIUM`. */
  function Normalize(token: string): (p: Priority)
    requires IsToken(token)
    ensures Name(p) == (if Upper(token) == "MED" then "MEDIUM" else Upper(token))
  {
    var u := Upper(token);
    if u == "HIGH" then High else if u == "LOW" then Low else Medium
  }

  /** The header pieces of a line, which the source trims before matching. */
  function HeaderOf(line: string): Option<HeaderParts>
  {
    MatchHeader(Trim(line))
  }

  /** A line that, trimmed, begins with the arrow: a fix on its own line. */
  predicate IsArrowLine(line: string)
  {
    StartsWith(Trim(line), [Arrow])
  }

  /** The fix written on the header line itself, trimmed; empty when absent. */
  function OwnFix(p: HeaderParts): string
  {
    match p.fix
    case None => ""
    case Some(y) => Trim(y)
  }

  /** The fix carried by an arrow line: what follows the arrow, trimmed. */
  function ArrowLineFix(line: string): string
    requires IsArrowLine(line)
  {
    Trim(Trim(line)[1..])
  }

  /** What one line means to the parser: a header, a fix on its own line,
      or neither. */
  datatype Line = Head(priority: Priority, issue: string, own: string) | FixLine(fix: string) | Plain

  /** A header reading has a non-empty issue. */
  predicate Valid(c: Line)
  {
    c.Head? ==> |c.issue| > 0
  }

  /** The readings the parser can produce. */
  type Reading = c: Line | Valid(c) witness Plain

  predicate IsHead(c: Reading)
  {
    c.Head?
  }

  predicate IsHeaderLine(line: string)
  {
    HeaderOf(line).Some?
  }

  /** The reading of one line, header first. */
  function Classify(line: string): (c: Reading)
    ensures c.Head? <==> IsHeaderLine(line)
    ensures c.Head? ==> HeaderOf(line).Some? && c == HeadOf(HeaderOf(line).value)
    ensures c.FixLine? ==> IsArrowLine(line) && c.fix == ArrowLineFix(line)
    ensures !IsHeaderLine(line) && IsArrowLine(line) ==> c.FixLine?
  {
    match HeaderOf(line)
    case Some(p) => HeadOf(p)
    case None => if IsArrowLine(line) then FixLine(ArrowLineFix(line)) else Plain
  }

  /** The readings of all lines, in order. */
  function Classes(lines: seq<string>): (cs: seq<Reading>)
    ensures |cs| == |lines|
  {
    Map(lines, Classify)
  }

  /** The reading of a header: its normalised priority, trimmed issue and
      trimmed own fix. */
  function HeadOf(p: HeaderParts): (c: Reading)
    requires WellFormed(p)
    ensures c.Head?
  {
    TrimKeepsFirst(p.issue);
    Head(Normalize(p.token), Trim(p.issue), OwnFix(p))
  }

  /** The record of a header whose next line reads as `next` (`Plain` when
      there is none). A fix line after the header is used only when the
      header carries no fix of its own, and the issue stands in for a fix
      that is still empty. */
  function Build(h: Reading, next: Line): (r: Recommendation)
    requires h.Head?
    ensures Actionable(r)
    ensures r.priority == h.priority && r.issue == h.issue
    ensures h.own != "" ==> r.fix == h.own
    ensures h.own == "" && next.FixLine? && next.fix != "" ==> r.fix == next.fix
    ensures h.own == "" && (!next.FixLine? || next.fix == "") ==> r.fix == h.issue
  {
    var fix := if h.own == "" && next.FixLine? then next.fix else h.own;
    Recommendation(h.priority, h.issue, if fix == "" then h.issue else fix)
  }

  /** One record per header, in order, each built from its header and the
      reading of the line after it. */
  function RecordsOf(cs: seq<Reading>): (r: seq<Recommendation>)
    ensures |r| == Count(cs, IsHead)
    ensures forall x :: x in r ==> Actionable(x)
    decreases |cs|
  {
    if |cs| == 0 then []
    else
      var rest := RecordsOf(cs[1..]);
      if cs[0].Head? then [Build(cs[0], if |cs| > 1 then cs[1] else Plain)] + rest
      else rest
  }

  /** The records of a list of lines. */
  function Records(lines: seq<string>): seq<Recommendation>
  {
    RecordsOf(Classes(lines))
  }

  /** The parser's result for a text: its lines are those of `split('\n')`. */
  function Parse(text: string): seq<Recommendation>
  {
    Records(Split(text, '\n'))
  }

  /** An arrow line can never be a header: headers begin with a digit. */
  lemma ArrowLineNotHeader(line: string)
    requires IsArrowLine(line)
    ensures !IsHeaderLine(line)
  {
    var t := Trim(line);
    assert t[0] == Arrow;
    assert LeadingDigits(t) == 0;
  }

  /** There is exactly one record per header line, so never more records
      than lines. */
  lemma RecordsCount(lines: seq<string>)
    ensures |Records(lines)| == Count(lines, IsHeaderLine)
    ensures |Records(lines)| <= |lines|
  {
    forall i | 0 <= i < |lines|
      ensures IsHeaderLine(lines[i]) == IsHead(Classify(lines[i]))
    {
    }
    CountMap(lines, Classify, IsHead, IsHeaderLine);
  }

  /** The records of a suffix starting at a line that is not a header. */
  lemma RecordsAtOther(cs: seq<Reading>, i: nat)
    requires i < |cs| && !cs[i].Head?
    ensures RecordsOf(cs[i..]) == RecordsOf(cs[i + 1..])
  {
    assert cs[i..][1..] == cs[i + 1..];
  }

  /** The source's loop. When a header has no fix and the next trimmed line
      begins with the arrow, that line supplies the fix and is skipped. */
  method ParseRecommendations(text: string) returns (recs: seq<Recommendation>)
    ensures recs == Parse(text)
  {
    var lines := Split(text, '\n');
    ghost var cs := Classes(lines);
    recs := [];
    var i := 0;
    while i < |lines|
      invariant 0 <= i <= |lines|
      invariant recs + RecordsOf(cs[i..]) == RecordsOf(cs)
    {
      var line := Trim(lines[i]);
      var m := MatchHeader(line);
      if m.Some? {
        var p := m.value;
        var r, skip := HeaderRecord(lines, i, p);
        HeadReading(lines, i, p);
        HeaderLineStep(lines, i, HeadOf(p), r, skip);
        var tail := RecordsOf(cs[if skip then i + 2 else i + 1..]);
        AppendAssoc(recs, [r], tail);
        recs := recs + [r];
        i := if skip then i + 2 else i + 1;
      } else {
        MapAt(lines, Classify, i);
        RecordsAtOther(cs, i);
        i := i + 1;
      }
    }
    assert cs[i..] == [];
  }

  /** The loop body for a header line: the record it pushes, and whether it
      consumed the next line as the fix. */
  method HeaderRecord(lines: seq<string>, i: nat, p: HeaderParts) returns (r: Recommendation, skip: bool)
    requires i < |lines| && MatchHeader(Trim(lines[i])) == Some(p)
    ensures skip <==> OwnFix(p) == "" && i + 1 < |lines| && IsArrowLine(lines[i + 1])
    ensures r.priority == HeadOf(p).priority && r.issue == HeadOf(p).issue
    ensures var f := if skip then ArrowLineFix(lines[i + 1]) else OwnFix(p);
            r.fix == if f == "" then r.issue else f
  {
    var issue := Trim(p.issue);
    var fix := OwnFix(p);
    var fullFix := fix;
    skip := false;
    if fix == "" && i + 1 < |lines| {
      var nextLine := Trim(lines[i + 1]);
      if StartsWith(nextLine, [Arrow]) {
        fullFix := Trim(nextLine[1..]);
        skip := true;
      }
    }
    r := Recommendation(Normalize(p.token), issue, if fullFix == "" then issue else fullFix);
  }

  /** What the loop does at a header line agrees with the reference
      records of the remaining lines. */
  lemma HeaderLineStep(lines: seq<string>, i: nat, h: Reading, r: Recommendation, skip: bool)
    requires i < |lines| && Classes(lines)[i] == h && h.Head?
    requires skip <==> h.own == "" && i + 1 < |lines| && IsArrowLine(lines[i + 1])
    requires r.priority == h.priority && r.issue == h.issue
    requires var f := if skip then ArrowLineFix(lines[i + 1]) else h.own;
             r.fix == if f == "" then r.issue else f
    ensures skip ==> i + 1 < |lines|
    ensures RecordsOf(Classes(lines)[i..]) == [r] + RecordsOf(Classes(lines)[if skip then i + 2 else i + 1..])
  {
    if i + 1 < |lines| {
      NextReading(lines, i + 1);
    }
    HeaderStep(Classes(lines), i, h, r, skip);
  }

  /** The reading of a line the header expression accepts. */
  lemma HeadReading(lines: seq<string>, i: nat, p: HeaderParts)
    requires i < |lines| && MatchHeader(Trim(lines[i])) == Some(p)
    ensures Classes(lines)[i] == HeadOf(p)
  {
    MapAt(lines, Classify, i);
  }

  /** A line reads as a fix line exactly when it is an arrow line. */
  lemma NextReading(lines: seq<string>, i: nat)
    requires i < |lines|
    ensures Classes(lines)[i].FixLine? <==> IsArrowLine(lines[i])
    ensures Classes(lines)[i].FixLine? ==> Classes(lines)[i].fix == ArrowLineFix(lines[i])
  {
    MapAt(lines, Classify, i);
    if IsArrowLine(lines[i]) {
      ArrowLineNotHeader(lines[i]);
    }
  }

  /** One header step of the loop: the record it appends is the reference
      record of that header, and a skipped fix line contributes no record. */
  lemma HeaderStep(cs: seq<Reading>, i: nat, h: Reading, r: Recommendation, skip: bool)
    requires i < |cs| && cs[i] == h && h.Head?
    requires skip <==> h.own == "" && i + 1 < |cs| && cs[i + 1].FixLine?
    requires r.priority == h.priority && r.issue == h.issue
    requires var f := if skip then cs[i + 1].fix else h.own;
             r.fix == if f == "" then r.issue else f
    ensures RecordsOf(cs[i..]) == [r] + RecordsOf(cs[if skip then i + 2 else i + 1..])
  {
    assert cs[i..][1..] == cs[i + 1..];
    if skip {
      RecordsAtOther(cs, i + 1);
    }
  }

  /** Records of readings are local: cutting anywhere except between a
      header and the fix line after it, the two halves yield their records
      independently and in order. */
  lemma {:induction false} RecordsOfAppend(a: seq<Reading>, b: seq<Reading>)
    requires Separable(a, b)
    ensures RecordsOf(a + b) == RecordsOf(a) + RecordsOf(b)
    decreases |a|
  {
    if |a| == 0 {
      assert a + b == b;
    } else {
      assert (a + b)[1..] == a[1..] + b;
      RecordsOfAppend(a[1..], b);
    }
  }

  /** Parsing is local: splitting the lines anywhere except between a
      header and the arrow line after it, the two halves parse
      independently and their records follow each other in line order. */
  lemma RecordsAppend(a: seq<string>, b: seq<string>)
    requires |a| == 0 || |b| == 0 || !IsArrowLine(b[0]) || !IsHeaderLine(a[|a| - 1])
    ensures Records(a + b) == Records(a) + Records(b)
  {
    MapAppend(a, b, Classify);
    BoundaryReadings(a, b);
    RecordsOfAppend(Classes(a), Classes(b));
  }

  /** Two runs of readings that can be cut apart: the first does not end
      with a header or the second does not begin with a fix line. */
  predicate Separable(a: seq<Reading>, b: seq<Reading>)
  {
    |a| == 0 || |b| == 0 || !b[0].FixLine? || !a[|a| - 1].Head?
  }

  /** Lines cut apart elsewhere than between a header and an arrow line
      have readings that can be cut apart. */
  lemma BoundaryReadings(a: seq<string>, b: seq<string>)
    requires |a| == 0 || |b| == 0 || !IsArrowLine(b[0]) || !IsHeaderLine(a[|a| - 1])
    ensures Separable(Classes(a), Classes(b))
  {
    if |a| > 0 && |b| > 0 {
      LastReading(a, |a| - 1);
      NextReading(b, 0);
    }
  }

  /** The last line of `a` reads as a header exactly when it is one. */
  lemma LastReading(a: seq<string>, k: nat)
    requires k < |a|
    ensures Classes(a)[k].Head? <==> IsHeaderLine(a[k])
  {
    MapAt(a, Classify, k);
  }

  /** A line that is neither a header nor an arrow line yields nothing and
      does not disturb the lines around it. */
  lemma JunkLine(a: seq<string>, x: string, b: seq<string>)
    requires !IsHeaderLine(x) && !IsArrowLine(x)
    ensures Records(a + [x] + b) == Records(a) + Records(b)
  {
    MapMiddle(a, x, b, Classify);
    ClassifyPlain(x);
    PlainNeutral(Classes(a), Classes(b));
  }

  /** A reading that is neither a header nor a fix line contributes nothing
      and separates what is around it. */
  lemma PlainNeutral(a: seq<Reading>, b: seq<Reading>)
    ensures RecordsOf(a + [Plain] + b) == RecordsOf(a) + RecordsOf(b)
  {
    RecordsOfAppend(a + [Plain], b);
    RecordsOfAppend(a, [Plain]);
  }

  /** A line that is neither a header nor an arrow line reads as plain. */
  lemma ClassifyPlain(x: string)
    requires !IsHeaderLine(x) && !IsArrowLine(x)
    ensures Classify(x) == Plain
  {
  }

  /** The readings of a line followed by others. */
  lemma ClassesCons(x: string, rest: seq<string>)
    ensures Classes([x] + rest) == [Classify(x)] + Classes(rest)
  {
    MapCons(x, rest, Classify);
  }

  /** A line of white space is neither a header nor an arrow line. */
  lemma BlankLine(line: string)
    requires AllSpaces(line)
    ensures !IsHeaderLine(line) && !IsArrowLine(line)
  {
    TrimAllSpaces(line);
  }

  /** Readings none of which is a header yield no records. */
  lemma {:induction false} NoHeads(cs: seq<Reading>)
    requires forall i :: 0 <= i < |cs| ==> !cs[i].Head?
    ensures RecordsOf(cs) == []
    decreases |cs|
  {
    if |cs| > 0 {
      NoHeads(cs[1..]);
    }
  }

  /** Empty or white-space-only text yields no recommendations. */
  lemma BlankText(text: string)
    requires AllSpaces(text)
    ensures Parse(text) == []
  {
    var lines := Split(text, '\n');
    SplitAllSpaces(text, '\n');
    forall i | 0 <= i < |lines|
      ensures !Classes(lines)[i].Head?
    {
      BlankLine(lines[i]);
      MapAt(lines, Classify, i);
    }
    NoHeads(Classes(lines));
  }

  /** The rendering of well-formed pieces that ends in a non-space
      character is unchanged by trimming. */
  lemma RenderTrimmed(p: HeaderParts)
    requires WellFormed(p)
    requires match p.fix
             case Some(y) => !IsSpace(y[|y| - 1])
             case None => !IsSpace(p.issue[|p.issue| - 1])
    ensures Trim(Render(p)) == Render(p)
  {
    RenderEnds(p);
    TrimTrimmed(Render(p));
  }

  /** The rendering begins with a digit and ends with the last character
      of the issue or of the fix. */
  lemma RenderEnds(p: HeaderParts)
    requires WellFormed(p)
    requires match p.fix
             case Some(y) => !IsSpace(y[|y| - 1])
             case None => !IsSpace(p.issue[|p.issue| - 1])
    ensures IsTrimmed(Render(p))
  {
    var tail := p.issue + FixText(p.fix);
    assert |tail| > 0 && !IsSpace(tail[|tail| - 1]) by {
      match p.fix
      case Some(y) =>
        LastOfAppend([Arrow], y);
        LastOfAppend(p.issue, [Arrow] + y);
      case None =>
        assert tail == p.issue;
    }
    var x7 := p.lead + tail;
    LastOfAppend(p.lead, tail);
    var x5 := p.token + ("]" + x7);
    LastOfAppend("]", x7);
    LastOfAppend(p.token, "]" + x7);
    var x3 := "[" + (LabelText(p.prefix) + x5);
    LastOfAppend(LabelText(p.prefix), x5);
    LastOfAppend("[", LabelText(p.prefix) + x5);
    var x1 := "." + (p.gap + x3);
    LastOfAppend(p.gap, x3);
    LastOfAppend(".", p.gap + x3);
    LastOfAppend(p.ordinal, x1);
    assert Render(p) == p.ordinal + x1;
    assert Render(p)[0] == p.ordinal[0];
  }

  /** A rendered header line reads back as that header. */
  lemma ClassifyRender(p: HeaderParts)
    requires WellFormed(p)
    requires match p.fix
             case Some(y) => !IsSpace(y[|y| - 1])
             case None => !IsSpace(p.issue[|p.issue| - 1])
    ensures Classify(Render(p)) == HeadOf(p)
  {
    RenderTrimmed(p);
    MatchRender(p);
  }

  /** The first record of lines starting with a header. */
  lemma RecordsAtHead(lines: seq<string>)
    requires |lines| > 0 && IsHeaderLine(lines[0])
    ensures var r := Records(lines);
            && |r| >= 1
            && r[0] == Build(Classify(lines[0]), if |lines| > 1 then Classify(lines[1]) else Plain)
            && r[1..] == Records(lines[1..])
  {
    var cs := Classes(lines);
    MapAt(lines, Classify, 0);
    if |lines| > 1 {
      MapAt(lines, Classify, 1);
    }
    MapSuffix(lines, Classify, 1);
  }

  /** A well-formed header line `N. [P] X → Y` yields priority `P` (upper
      case, `MED` read as `MEDIUM`), issue `trim(X)` and fix `trim(Y)`; any
      later arrow stays inside the fix. The record is followed by those of
      the remaining lines. */
  lemma InlineFix(p: HeaderParts, y: string, rest: seq<string>)
    requires WellFormed(p) && p.fix == Some(y) && !IsSpace(y[|y| - 1])
    ensures Records([Render(p)] + rest)
            == [Recommendation(Normalize(p.token), Trim(p.issue), Trim(y))] + Records(rest)
  {
    ClassesHead(p, rest);
    TrimKeepsLast(y);
    HeadWithFix(HeadOf(p), Classes(rest));
  }

  /** A header reading with its own fix keeps it, whatever follows. */
  lemma HeadWithFix(h: Reading, rest: seq<Reading>)
    requires h.Head? && h.own != ""
    ensures RecordsOf([h] + rest) == [Recommendation(h.priority, h.issue, h.own)] + RecordsOf(rest)
  {
    assert ([h] + rest)[1..] == rest;
  }

  /** A header without a fix followed by an arrow line takes its fix from
      that line (falling back to the issue when nothing follows the arrow),
      and the arrow line yields no record of its own. */
  lemma NextLineFix(p: HeaderParts, next: string, rest: seq<string>)
    requires WellFormed(p) && p.fix.None? && !IsSpace(p.issue[|p.issue| - 1])
    requires IsArrowLine(next)
    ensures var f := ArrowLineFix(next);
            Records([Render(p), next] + rest)
            == [Recommendation(Normalize(p.token), Trim(p.issue), if f == "" then Trim(p.issue) else f)] + Records(rest)
  {
    ClassesHeadArrow(p, next, rest);
    HeadThenFix(HeadOf(p), ArrowLineFix(next), Classes(rest));
  }

  /** The readings of a rendered header followed by an arrow line. */
  lemma ClassesHeadArrow(p: HeaderParts, next: string, rest: seq<string>)
    requires WellFormed(p) && p.fix.None? && !IsSpace(p.issue[|p.issue| - 1])
    requires IsArrowLine(next)
    ensures Classes([Render(p), next] + rest) == [HeadOf(p), FixLine(ArrowLineFix(next))] + Classes(rest)
  {
    ConsPair(Render(p), next, rest);
    ConsPair(HeadOf(p), FixLine(ArrowLineFix(next)), Classes(rest));
    ClassesHead(p, [next] + rest);
    ClassesArrow(next, rest);
  }

  /** The readings of a rendered header followed by other lines. */
  lemma ClassesHead(p: HeaderParts, rest: seq<string>)
    requires WellFormed(p)
    requires match p.fix
             case Some(y) => !IsSpace(y[|y| - 1])
             case None => !IsSpace(p.issue[|p.issue| - 1])
    ensures Classes([Render(p)] + rest) == [HeadOf(p)] + Classes(rest)
  {
    ClassesCons(Render(p), rest);
    ClassifyRender(p);
  }

  /** The readings of an arrow line followed by other lines. */
  lemma ClassesArrow(next: string, rest: seq<string>)
    requires IsArrowLine(next)
    ensures Classes([next] + rest) == [FixLine(ArrowLineFix(next))] + Classes(rest)
  {
    ClassesCons(next, rest);
    ClassifyArrow(next);
  }

  /** An arrow line reads as a fix line. */
  lemma ClassifyArrow(x: string)
    requires IsArrowLine(x)
    ensures Classify(x) == FixLine(ArrowLineFix(x))
  {
    ArrowLineNotHeader(x);
  }

  /** A header reading without a fix of its own, followed by a fix line,
      takes that fix (or its issue when the fix line is empty) and the fix
      line yields no record. */
  lemma HeadThenFix(h: Reading, f: string, rest: seq<Reading>)
    requires h.Head? && h.own == ""
    ensures RecordsOf([h, FixLine(f)] + rest)
            == [Recommendation(h.priority, h.issue, if f == "" then h.issue else f)] + RecordsOf(rest)
  {
    var cs := [h, FixLine(f)] + rest;
    assert cs[1..] == [FixLine(f)] + rest;
    assert cs[1..][1..] == rest;
  }

  /** An arrow line at the front yields no record. */
  lemma JunkFree(next: string, rest: seq<string>)
    requires IsArrowLine(next)
    ensures Records([next] + rest) == Records(rest)
  {
    ClassesArrow(next, rest);
    assert ([FixLine(ArrowLineFix(next))] + Classes(rest))[1..] == Classes(rest);
  }

  /** A header without a fix whose next line is not an arrow line (or that
      is the last line) gets its issue as its fix. */
  lemma FallbackFix(lines: seq<string>)
    requires |lines| > 0 && IsHeaderLine(lines[0]) && OwnFix(HeaderOf(lines[0]).value) == ""
    requires |lines| == 1 || !IsArrowLine(lines[1])
    ensures |Records(lines)| > 0 && Records(lines)[0].fix == Records(lines)[0].issue
  {
    RecordsAtHead(lines);
  }
}

=== FILE: text.dfy ===
/** String primitives of JavaScript that the audit code relies on:
    `trim`, `\s`, `split`, `startsWith`, `includes`, `replace` with a
    string pattern, and the ASCII case folding of a non-unicode `/i`
    regular expression. Strings are sequences of Unicode scalar values;
    `Utf16Length` gives the `length` JavaScript reports for them. */
module Text {

  import Base

  /** The JavaScript white-space and line-terminator characters, which are
      exactly what both `String.prototype.trim` and the regex class `\s`
      remove or match. */
  predicate IsSpace(c: char)
  {
    || c == '\t' || c == '\n' || c == '\U{000B}' || c == '\U{000C}' || c == '\r'
    || c == ' ' || c == '\U{00A0}' || c == '\U{1680}'
    || ('\U{2000}' <= c <= '\U{200A}')
    || c == '\U{2028}' || c == '\U{2029}' || c == '\U{202F}' || c == '\U{205F}'
    || c == '\U{3000}' || c == '\U{FEFF}'
  }

  /** The characters the regex `.` refuses to match. */
  predicate IsLineTerminator(c: char)
  {
    c == '\n' || c == '\r' || c == '\U{2028}' || c == '\U{2029}'
  }

  /** The regex class `\d`: ASCII digits only. */
  predicate IsDigit(c: char)
  {
    '0' <= c <= '9'
  }

  predicate AllSpaces(s: string)
  {
    forall i :: 0 <= i < |s| ==> IsSpace(s[i])
  }

  predicate AllDigits(s: string)
  {
    forall i :: 0 <= i < |s| ==> IsDigit(s[i])
  }

  predicate NoLineTerminator(s: string)
  {
    forall i :: 0 <= i < |s| ==> !IsLineTerminator(s[i])
  }

  /** A string with no white space at either end. */
  predicate IsTrimmed(s: string)
  {
    |s| == 0 || (!IsSpace(s[0]) && !IsSpace(s[|s| - 1]))
  }

  /** Length of the longest prefix of digits (what greedy `\d+` consumes). */
  function LeadingDigits(s: string): (n: nat)
    ensures n <= |s|
    ensures AllDigits(s[..n])
    ensures n == |s| || !IsDigit(s[n])
    decreases |s|
  {
    if |s| > 0 && IsDigit(s[0]) then 1 + LeadingDigits(s[1..]) else 0
  }

  /** Length of the longest prefix of white space (what greedy `\s*` consumes). */
  function LeadingSpaces(s: string): (n: nat)
    ensures n <= |s|
    ensures AllSpaces(s[..n])
    ensures n == |s| || !IsSpace(s[n])
    decreases |s|
  {
    if |s| > 0 && IsSpace(s[0]) then 1 + LeadingSpaces(s[1..]) else 0
  }

  /** Where the white-space run that ends at `e` begins, looking no further
      back than `a`: everything from the result up to `e` is white space,
      and the character just before it is not. */
  function SpaceRunStart(s: string, a: nat, e: nat): (r: nat)
    requires a <= e <= |s|
    ensures a <= r <= e
    ensures forall k :: r <= k < e ==> IsSpace(s[k])
    ensures r == a || !IsSpace(s[r - 1])
    decreases e
  {
    if e > a && IsSpace(s[e - 1]) then SpaceRunStart(s, a, e - 1) else e
  }

  /** `String.prototype.trim`. */
  function Trim(s: string): (r: string)
    ensures IsTrimmed(r) && |r| <= |s|
  {
    var a := LeadingSpaces(s);
    var e := SpaceRunStart(s, a, |s|);
    assert IsTrimmed(s[a..e]) by {
      if a < e {
        assert s[a..e][0] == s[a];
        assert s[a..e][e - a - 1] == s[e - 1];
      }
    }
    s[a..e]
  }

  /** Trimming takes away white space at both ends and nothing else: the
      result is the stretch of `s` after its leading white space, with only
      white space after it. */
  lemma TrimShape(s: string)
    ensures var a, r := LeadingSpaces(s), Trim(s);
            && a + |r| <= |s| && r == s[a..a + |r|]
            && AllSpaces(s[..a]) && AllSpaces(s[a + |r|..])
  {
    var a := LeadingSpaces(s);
    var e := SpaceRunStart(s, a, |s|);
    assert |Trim(s)| == e - a;
    forall k | 0 <= k < |s| - e
      ensures IsSpace(s[e..][k])
    {
      assert s[e..][k] == s[e + k];
    }
  }

  /** The white-space run that ends at `e` begins at `m` when everything
      from `m` to `e` is white space and the character before `m` is not. */
  lemma {:induction false} SpaceRunStartAt(s: string, a: nat, m: nat, e: nat)
    requires a <= m <= e <= |s|
    requires forall k :: m <= k < e ==> IsSpace(s[k])
    requires m == a || !IsSpace(s[m - 1])
    ensures SpaceRunStart(s, a, e) == m
    decreases e
  {
    if e > m {
      SpaceRunStartAt(s, a, m, e - 1);
    }
  }

  /** Trimming removes at most white space: a string that is already trimmed
      is left unchanged. */
  lemma TrimTrimmed(s: string)
    requires IsTrimmed(s)
    ensures Trim(s) == s
  {
    if |s| > 0 {
      assert LeadingSpaces(s) == 0;
      SpaceRunStartAt(s, 0, |s|, |s|);
    }
  }

  /** Trimming is idempotent. */
  lemma TrimIdempotent(s: string)
    ensures Trim(Trim(s)) == Trim(s)
  {
    TrimTrimmed(Trim(s));
  }

  /** The white-space run at the front of `pre + s` is exactly `pre` when
      `s` does not begin with white space. */
  lemma {:induction false} LeadingSpacesAppend(pre: string, s: string)
    requires AllSpaces(pre)
    requires |s| == 0 || !IsSpace(s[0])
    ensures LeadingSpaces(pre + s) == |pre|
    decreases |pre|
  {
    if |pre| == 0 {
      assert pre + s == s;
    } else {
      assert (pre + s)[1..] == pre[1..] + s;
      LeadingSpacesAppend(pre[1..], s);
    }
  }

  /** The digit run at the front of `pre + s` is exactly `pre` when `s`
      does not begin with a digit. */
  lemma {:induction false} LeadingDigitsAppend(pre: string, s: string)
    requires AllDigits(pre)
    requires |s| == 0 || !IsDigit(s[0])
    ensures LeadingDigits(pre + s) == |pre|
    decreases |pre|
  {
    if |pre| == 0 {
      assert pre + s == s;
    } else {
      assert (pre + s)[1..] == pre[1..] + s;
      LeadingDigitsAppend(pre[1..], s);
    }
  }

  /** A string that ends with a non-space character is not all leading
      white space. */
  lemma {:induction false} LeadingSpacesBelow(s: string)
    requires |s| > 0 && !IsSpace(s[|s| - 1])
    ensures LeadingSpaces(s) < |s|
    decreases |s|
  {
    if IsSpace(s[0]) {
      assert |s| > 1;
      LeadingSpacesBelow(s[1..]);
    }
  }

  /** Trimming a string that begins with a non-space character leaves it
      non-empty and keeps that first character. */
  lemma TrimKeepsFirst(s: string)
    requires |s| > 0 && !IsSpace(s[0])
    ensures |Trim(s)| > 0 && Trim(s)[0] == s[0]
  {
    assert LeadingSpaces(s) == 0;
  }

  /** A string that ends with a non-space character trims to a non-empty
      string. */
  lemma TrimKeepsLast(s: string)
    requires |s| > 0 && !IsSpace(s[|s| - 1])
    ensures |Trim(s)| > 0
  {
    LeadingSpacesBelow(s);
  }

  /** A string of white space trims to the empty string. */
  lemma TrimAllSpaces(s: string)
    requires AllSpaces(s)
    ensures Trim(s) == ""
  {
    LeadingSpacesAppend(s, "");
    assert s + "" == s;
  }

  /** Surrounding white space is what `Trim` takes away. */
  lemma TrimPadded(pre: string, s: string, post: string)
    requires AllSpaces(pre) && AllSpaces(post) && IsTrimmed(s) && |s| > 0
    ensures Trim(pre + s + post) == s
  {
    var w := pre + s + post;
    assert w == pre + (s + post);
    LeadingSpacesAppend(pre, s + post);
    var e := |pre| + |s|;
    forall k | e <= k < |w|
      ensures IsSpace(w[k])
    {
      assert w[k] == post[k - e];
    }
    assert w[e - 1] == s[|s| - 1];
    SpaceRunStartAt(w, |pre|, e, |w|);
    assert w[|pre|..e] == s;
  }

  /** A character of the Basic Multilingual Plane: one UTF-16 code unit. */
  predicate IsBmp(c: char)
  {
    (c as int) < 0x1_0000
  }

  /** `String.prototype.length`: the number of UTF-16 code units, a
      character outside the Basic Multilingual Plane taking a surrogate
      pair. */
  function Utf16Length(s: string): (n: nat)
    ensures |s| <= n <= 2 * |s|
    decreases |s|
  {
    if |s| == 0 then 0 else (if IsBmp(s[0]) then 1 else 2) + Utf16Length(s[1..])
  }

  /** The code units of a concatenation are those of its parts. */
  lemma {:induction false} Utf16LengthAppend(a: string, b: string)
    ensures Utf16Length(a + b) == Utf16Length(a) + Utf16Length(b)
    decreases |a|
  {
    if |a| == 0 {
      assert a + b == b;
    } else {
      assert (a + b)[1..] == a[1..] + b;
      Utf16LengthAppend(a[1..], b);
    }
  }

  /** The length JavaScript reports equals the number of characters exactly
      when every character lies in the Basic Multilingual Plane. */
  lemma {:induction false} Utf16LengthBmp(s: string)
    ensures Utf16Length(s) == |s| <==> forall i :: 0 <= i < |s| ==> IsBmp(s[i])
    decreases |s|
  {
    if |s| > 0 {
      Utf16LengthBmp(s[1..]);
      assert forall i :: 1 <= i < |s| ==> s[i] == s[1..][i - 1];
      if forall i :: 0 <= i < |s| ==> IsBmp(s[i]) {
        assert forall i :: 0 <= i < |s[1..]| ==> IsBmp(s[1..][i]) by {
          forall i | 0 <= i < |s[1..]| ensures IsBmp(s[1..][i]) {
            assert s[1..][i] == s[i + 1];
          }
        }
      }
    }
  }

  function StartsWith(s: string, prefix: string): bool
  {
    |prefix| <= |s| && s[..|prefix|] == prefix
  }

  /** `t` occurs in `s` starting at position `i`. */
  predicate OccursAt(s: string, t: string, i: int)
  {
    0 <= i && i + |t| <= |s| && s[i..i + |t|] == t
  }

  /** The first position at or after `from` where `t` occurs in `s`. */
  function IndexOfFrom(s: string, t: string, from: nat): (r: Base.Option<nat>)
    ensures r.Some? ==> from <= r.value && OccursAt(s, t, r.value)
    ensures r.Some? ==> forall j :: from <= j < r.value ==> !OccursAt(s, t, j)
    ensures r.None? ==> forall j :: from <= j ==> !OccursAt(s, t, j)
    decreases |s| - from
  {
    if from + |t| > |s| then Base.None
    else if s[from..from + |t|] == t then Base.Some(from)
    else IndexOfFrom(s, t, from + 1)
  }

  /** `String.prototype.indexOf`: the first occurrence of `t` in `s`. */
  function IndexOf(s: string, t: string): (r: Base.Option<nat>)
    ensures r.Some? ==> OccursAt(s, t, r.value)
    ensures r.Some? ==> forall j :: 0 <= j < r.value ==> !OccursAt(s, t, j)
    ensures r.None? ==> forall j :: !OccursAt(s, t, j)
  {
    IndexOfFrom(s, t, 0)
  }

  /** `String.prototype.includes`. */
  function Includes(s: string, t: string): (b: bool)
    ensures b <==> exists i :: OccursAt(s, t, i)
  {
    IndexOf(s, t).Some?
  }

  /** `String.prototype.replace` with a string pattern: only the first
      occurrence of `pat` is replaced. */
  function ReplaceFirst(s: string, pat: string, rep: string): string
  {
    match IndexOf(s, pat)
    case None => s
    case Some(k) => s[..k] + rep + s[k + |pat|..]
  }

  /** Replacing a pattern the string begins with by nothing strips that
      prefix, whatever follows it. */
  lemma ReplacePrefix(pre: string, rest: string)
    ensures ReplaceFirst(pre + rest, pre, "") == rest
  {
    var s := pre + rest;
    assert OccursAt(s, pre, 0);
    assert s[|pre|..] == rest;
  }

  /** `String.prototype.split` with a one-character separator. */
  function Split(s: string, sep: char): (parts: seq<string>)
    ensures |parts| >= 1
    ensures forall i :: 0 <= i < |parts| ==> sep !in parts[i]
    decreases |s|
  {
    if |s| == 0 then [""]
    else
      var rest := Split(s[1..], sep);
      if s[0] == sep then [""] + rest
      else [[s[0]] + rest[0]] + rest[1..]
  }

  /** `Array.prototype.join`. */
  function Join(parts: seq<string>, sep: char): string
    requires |parts| >= 1
    decreases |parts|
  {
    if |parts| == 1 then parts[0]
    else parts[0] + [sep] + Join(parts[1..], sep)
  }

  /** Joining the pieces of a split gives back the original text. */
  lemma {:induction false} JoinSplit(s: string, sep: char)
    ensures Join(Split(s, sep), sep) == s
    decreases |s|
  {
    if |s| > 0 {
      var rest := Split(s[1..], sep);
      JoinSplit(s[1..], sep);
      if s[0] == sep {
        assert s == [sep] + s[1..];
      } else {
        var parts := Split(s, sep);
        if |rest| == 1 {
          assert parts == [[s[0]] + rest[0]];
        } else {
          assert parts[1..] == rest[1..];
          assert Join(rest, sep) == rest[0] + [sep] + Join(rest[1..], sep);
        }
        assert s == [s[0]] + s[1..];
      }
    }
  }

  /** Splitting a join of separator-free pieces gives back the pieces. */
  lemma {:induction false} SplitJoin(parts: seq<string>, sep: char)
    requires |parts| >= 1
    requires forall i :: 0 <= i < |parts| ==> sep !in parts[i]
    ensures Split(Join(parts, sep), sep) == parts
    decreases |parts|, |parts[0]|
  {
    var p := parts[0];
    if |p| == 0 {
      if |parts| > 1 {
        var rest := Join(parts[1..], sep);
        assert Join(parts, sep) == [sep] + rest;
        assert ([sep] + rest)[1..] == rest;
        SplitJoin(parts[1..], sep);
        assert [""] + parts[1..] == parts;
      }
    } else {
      var shorter := [p[1..]] + parts[1..];
      assert sep !in p[1..] by {
        assert forall c :: c in p[1..] ==> c in p;
      }
      assert shorter[1..] == parts[1..];
      SplitJoin(shorter, sep);
      var j := Join(parts, sep);
      if |parts| == 1 {
        assert j[1..] == Join(shorter, sep);
      } else {
        assert j == p + [sep] + Join(parts[1..], sep);
        assert j[1..] == Join(shorter, sep);
      }
      assert j[0] == p[0];
      assert p[0] in p;
      assert [p[0]] + p[1..] == p;
      assert [[p[0]] + p[1..]] + parts[1..] == parts;
    }
  }

  /** Every piece of a split is drawn from the text, so a text made only of
      white space splits into pieces made only of white space. */
  lemma {:induction false} SplitAllSpaces(s: string, sep: char)
    requires AllSpaces(s)
    ensures forall i :: 0 <= i < |Split(s, sep)| ==> AllSpaces(Split(s, sep)[i])
    decreases |s|
  {
    if |s| > 0 {
      SplitAllSpaces(s[1..], sep);
    }
  }

  /** `toUpperCase` on an ASCII letter; other characters are unchanged. */
  function UpperChar(c: char): char
  {
    if 'a' <= c <= 'z' then (c as int - 32) as char else c
  }

  function Upper(s: string): (r: string)
    ensures |r| == |s|
    ensures forall i :: 0 <= i < |s| ==> r[i] == UpperChar(s[i])
  {
    seq(|s|, i requires 0 <= i < |s| => UpperChar(s[i]))
  }

  /** Case-insensitive equality of the non-unicode `/i` regex flag against a
      pattern written in upper case: only ASCII letters fold. */
  predicate EqualsIgnoreCase(s: string, pattern: string)
  {
    Upper(s) == pattern
  }

  /** Upper-casing is idempotent: no lower-case ASCII letter survives it. */
  lemma UpperIdempotent(s: string)
    ensures Upper(Upper(s)) == Upper(s)
    ensures forall i :: 0 <= i < |s| ==> !('a' <= Upper(s)[i] <= 'z')
  {
  }

  /** `c` is `d`, or the lower-case form of `d` when `d` is a capital ASCII
      letter. */
  predicate CaseVariant(c: char, d: char)
  {
    c == d || ('A' <= d <= 'Z' && c as int == d as int + 32)
  }

  /** Against a pattern with no lower-case ASCII letter, the `/i` comparison
      accepts exactly the texts that spell the pattern with each letter in
      either case, and nothing else. */
  lemma IgnoreCaseVariants(s: string, pattern: string)
    requires forall i :: 0 <= i < |pattern| ==> !('a' <= pattern[i] <= 'z')
    ensures EqualsIgnoreCase(s, pattern)
            <==> |s| == |pattern| && forall i :: 0 <= i < |s| ==> CaseVariant(s[i], pattern[i])
  {
    if |s| == |pattern| {
      if forall i :: 0 <= i < |s| ==> CaseVariant(s[i], pattern[i]) {
        assert forall i :: 0 <= i < |s| ==> Upper(s)[i] == pattern[i];
      }
    }
  }
}
